=== FILE: README.md ===
# Matching pools, user ids, appointment participants and pupil activation

A Dafny model of four files of the Lern-Fair backend:

- **Matching pools** (`common/match/pool.ts`). This part covers:
  - the pool registry, and the filters that select a pool's students and pupils (the pool's own filter laid over the global `viableUsers` filter);
  - fetching and counting with those filters;
  - turning students into the matching engine's Helpers and pupils into Helpees. Helpers get their subjects' grade limits defaulted. Both sides get an exclusion list of every earlier match partner;
  - `runMatching`: look the pool up, prepare, match, map the engine's uuids back to rows, and commit with the pool's `createMatch` only when `apply` is set;
  - the daily `runAutomaticMatching` gate, which runs each automatic pool that meets its pupil and student thresholds.
- **User ids** (`common/user/index.ts`). This part covers:
  - the `type/id` user id: writing it, and reading it back with JavaScript's `split` and `parseInt`;
  - the `User` wrapper built from a pupil, student or screener row;
  - `getFullName`, and the dispatch of `queryUser`;
  - `getUsers`, `getStudentsFromList` and `getPupilsFromList`.
- **Appointment participants** (`common/appointment/participants.ts`): adding a user to every lecture of a subcourse as participant or organizer, and removing them again. An add throws at the first lecture where the user already holds the other role.
- **Pupil activation** (`common/pupil/activation.ts`): activating a pupil, and deactivating one. Deactivation notifies, dissolves the pupil's open matches, then clears the flag.

What this code reaches through collaborators whose bodies are not part of the model becomes a parameter:

- the matching engine;
- Prisma's reading of a `where` filter;
- `parseSubjectString`, `gradeAsInt` and the default grade range;
- each pool's `createMatch`;
- the clock.

The database is a value (`MatchPool.Store`) or an object whose fields the operations update (`Participants.Appointments`, `Activation.Database`). Where the source loops and updates state, the model is a method with a loop. Each such method is proved equal to a specification function, and the properties are lemmas about that function.

Files:

- `wrappers.dfy`: `Option` and `Result`.
- `user_ids.dfy`: module `UserIds`.
- `match_pool.dfy`: module `MatchPool`.
- `participants.dfy`: module `Participants`.
- `activation.dfy`: module `Activation`.

Two behaviours of the code that the model keeps as they are:

- **The gate stops at the first failing run.** `runAutomaticMatching` awaits each run inside its loop and catches nothing. A pool whose run throws therefore ends the whole gate, and later pools are not run: pools are not isolated from one another's failures.
- **A pool filter can override a viability condition.** Each pool's filter is spread over `viableUsers`, so a pool that names `active`, `verification` or `email` replaces that condition. `MatchPool.Overlay` states this. `MatchPool.RegistryKeepsViability` shows that the one registered pool does not do so.

## Model

| member | source | states |
|---|---|---|
| UserIds.Split | common/user/index.ts:34 | `split('/')` returns at least one piece, and no piece contains the separator |
| UserIds.JoinSplit | common/user/index.ts:34 | joining the pieces of a split with the separator gives back the string |
| UserIds.SplitJoin | common/user/index.ts:34 | splitting a join of separator-free pieces gives back the pieces |
| UserIds.ParseInt | common/user/index.ts:38 | `parseInt(s, 10)` is NaN exactly when no digit follows an optional sign |
| UserIds.NatToString | common/user/index.ts:105 | the decimal text of a number is all digits, has no leading zero and denotes that number |
| UserIds.ParseIntOfIntToString | common/user/index.ts:32-40 | `parseInt` of the decimal text of any integer gives back that integer |
| UserIds.TypeNamedIff | common/user/index.ts:33-35 | a segment is accepted exactly when it is one of the four type names, and each name maps to its own type |
| UserIds.ParseUserId | common/user/index.ts:32-40 | the only error is an invalid type, and it names the first segment; on success the type is that segment's |
| UserIds.ParseUserIdCases | common/user/index.ts:32-40 | `type/rest` parses to that type and to `parseInt` of the part of `rest` before the next `/` |
| UserIds.ParseUserIdBare | common/user/index.ts:32-40 | a user id that is only a type name reads as that type with a NaN id, since the missing second segment is `parseInt(undefined, 10)` |
| UserIds.ParseUserIdRejects | common/user/index.ts:35-37 | a first segment that names no type is rejected with that segment |
| UserIds.ParseUserIdOfUserId | common/user/index.ts:32-40 | round trip: the id written for a type and number parses back to them, even when more segments follow |
| UserIds.IntToString | common/user/index.ts:100-107 | the decimal text of an id holds no `/`, so it stays one segment (read back by `ParseIntOfIntToString`) |
| UserIds.UserId | common/user/index.ts:100-107 | the user id starts with the type name and a `/`, and an id follows |
| UserIds.UserForType | common/user/index.ts:103-113 | the user id is `type/id` and parses back to the type and id; the account columns are copied; exactly the id field of that type is set, to the row's id |
| UserIds.UserForPupil | common/user/index.ts:88-90 | the user id is `pupil/id`; only `pupilId` is set |
| UserIds.UserForStudent | common/user/index.ts:92-94 | the user id is `student/id`; only `studentId` is set |
| UserIds.UserForScreener | common/user/index.ts:96-98 | the user id is `screener/id`; only `screenerId` is set |
| UserIds.FullName | common/user/index.ts:115-125 | without a first name, the last name (possibly absent); without a last name, the first name; otherwise first name, one space, last name |
| UserIds.QueryUser | common/user/index.ts:145-168 | the student id wins, then the pupil id, then the screener id; ids that are absent or 0 are skipped; the lookup throws `Unknown User` exactly when none is set |
| UserIds.QueryUserForType | common/user/index.ts:145-168 | a user built from a row is looked up in that row's table, unless the id is 0, which counts as absent |
| UserIds.IdsOfType | common/user/index.ts:200-208 | at most one id per user id, in input order (which ones: `IdsOfTypeMembers`, `IdsOfTypeAppend`) |
| UserIds.IdsOfTypeMembers | common/user/index.ts:200-208 | an id is in the pupil (student) list exactly when some user id of that type parses to it |
| UserIds.IdsOfAdminDropped | common/user/index.ts:200-208 | screener and admin ids reach neither list |
| UserIds.IdsOfTypeAppend | common/user/index.ts:200-208 | the lists keep input order: more user ids append to them |
| UserIds.FirstInvalid | common/user/index.ts:200-201 | the position of the first user id whose parse throws, and there is none exactly when all parse |
| UserIds.Partition | common/user/index.ts:198-208 | throws exactly when some user id is invalid, with the first one's error; otherwise the pupil and student ids in input order |
| UserIds.RowsWithIds | common/user/index.ts:209-215 | `findMany` with `id in ids` returns exactly the table rows whose id is listed |
| UserIds.Listed | common/user/index.ts:225-244 | every fetched row is kept, with its `student/id` or `pupil/id` user id and the matching flag |
| UserIds.GetUsers | common/user/index.ts:197-246 | throws exactly when some user id is invalid; otherwise lists the requested students, then the requested pupils, every student before every pupil |
| UserIds.IdsFromList | common/user/index.ts:260-272 | at most one id per listed user id (which ones: `IdsFromListAppend` with `IdsFromListOne`) |
| UserIds.IdsFromListAppend | common/user/index.ts:261 | the filter and map read each entry on its own: the ids of a concatenation are the ids of its parts, in order, for any prefix |
| UserIds.IdsFromListOne | common/user/index.ts:261 | an entry with the `<type>/` prefix gives exactly one id, the one `getUserTypeAndIdForUserId` reads from it; an entry without the prefix gives none; with `IdsFromListAppend` this fixes the ids of any list, mixed prefixes included |
| UserIds.IdsFromListAgrees | common/user/index.ts:260-272 | for ids with the `student/` (`pupil/`) prefix, the prefix-and-split reading gives one id per entry, the same id `getUserTypeAndIdForUserId` reads |
| UserIds.IdsFromListSkips | common/user/index.ts:261 | user ids without the prefix contribute nothing |
| UserIds.AccountsFromList | common/user/index.ts:260-272 | the rows returned are exactly the table rows whose id was read from a listed user id with the prefix |
| MatchPool.Overlay | common/match/pool.ts:36 | the merged filter has the keys of both; the pool's condition wins wherever it names a key |
| MatchPool.RegistryKeepsViability | common/match/pool.ts:101-121 | the registered pool leaves all three `viableUsers` conditions in force on both sides |
| MatchPool.WithGradeRestriction | common/match/pool.ts:90-98 | the name is kept; each grade bound is kept when present, else replaced by the default, independently of the other |
| MatchPool.FindPool | common/match/pool.ts:135 | no pool is found exactly when no pool has the name; otherwise the first pool with the name |
| MatchPool.FindPoolDistinct | common/match/pool.ts:135 | with distinct names, every pool is found under its own name |
| MatchPool.LernFairNow | common/match/pool.ts:102-130 | the one registered pool: its name, its two filters, balancing coefficients 1, no `automatic` thresholds (properties: `RegistryLookup`, `RegistryKeepsViability`) |
| MatchPool.Registry | common/match/pool.ts:101-132 | `pools` holds exactly the `lern-fair-now` pool (property: `RegistryLookup`) |
| MatchPool.RegistryLookup | common/match/pool.ts:101-132 | the registry knows `lern-fair-now` and nothing else, and that pool is not automatic |
| MatchPool.Where | common/match/pool.ts:34-46 | a fetch returns exactly the rows that satisfy the filter, never more than the table holds |
| MatchPool.Page | common/match/pool.ts:34-46 | without `take` and `skip` all rows; with `take` at most that many; only rows of the fetch |
| MatchPool.PageWindow | common/match/pool.ts:34-46 | `skip` applies before `take`: the page is the stretch of the fetch that starts after the skipped rows (at the end when `skip` passes it) and holds `take` rows, or all that remain |
| MatchPool.StudentFilter | common/match/pool.ts:36 | the students' filter is `viableUsers` overlaid with the pool's `studentsToMatch` (properties: `Overlay`, `RegistryKeepsViability`) |
| MatchPool.PupilFilter | common/match/pool.ts:43 | the pupils' filter is `viableUsers` overlaid with the pool's `pupilsToMatch` (properties: `Overlay`, `RegistryKeepsViability`) |
| MatchPool.GetStudents | common/match/pool.ts:34-39 | the page of the student rows the merged filter selects, in table order (properties: `Where`, `Page`, `PageWindow`) |
| MatchPool.GetPupils | common/match/pool.ts:41-46 | the page of the pupil rows the merged filter selects, in table order (properties: `Where`, `Page`, `PageWindow`) |
| MatchPool.CountWhere | common/match/pool.ts:48-58 | `count` under a condition: the number of rows it selects (related to the fetch by `CountIsFetchLength`) |
| MatchPool.GetStudentCount | common/match/pool.ts:48-52 | the student count under the same merged filter as `getStudents` (equal to the unpaged fetch's length by `CountsMatchFetches`) |
| MatchPool.GetPupilCount | common/match/pool.ts:54-58 | the pupil count under the same merged filter as `getPupils` (equal to the unpaged fetch's length by `CountsMatchFetches`) |
| MatchPool.CountIsFetchLength | common/match/pool.ts:48-58 | a count under a filter is the length of the fetch under it |
| MatchPool.CountsMatchFetches | common/match/pool.ts:34-58 | `getStudentCount` (`getPupilCount`) is the size of the unpaged `getStudents` (`getPupils`) |
| MatchPool.PupilsMatchedWith | common/match/pool.ts:61 | the exclusions are exactly the `wix_id`s of the pupils the student has any match with |
| MatchPool.StudentsMatchedWith | common/match/pool.ts:75 | the exclusions are exactly the `wix_id`s of the students the pupil has any match with |
| MatchPool.ExclusionsIgnoreDissolved | common/match/pool.ts:60-88 | dissolving matches does not change any exclusion list |
| MatchPool.StudentToHelper | common/match/pool.ts:60-72 | the student's fields carried over; every parsed subject grade-defaulted in order; exclusions of every earlier partner |
| MatchPool.PupilToHelpee | common/match/pool.ts:74-88 | the pupil's fields carried over; subjects parsed but not defaulted; grade via `gradeAsInt`; exclusions of every earlier partner |
| MatchPool.Helpers | common/match/pool.ts:152 | one Helper per fetched student, in fetch order |
| MatchPool.Helpees | common/match/pool.ts:153 | one Helpee per fetched pupil, in fetch order |
| MatchPool.IndexBy | common/match/pool.ts:149-150 | every row's key is in the map, and each key maps to a row with that key |
| MatchPool.IndexByLastWins | common/match/pool.ts:149-150 | with duplicate keys the later row wins |
| MatchPool.StudentsByUuid | common/match/pool.ts:150 | the keys are exactly the fetched students' `wix_id`s, each filed to a fetched student with it |
| MatchPool.PupilsByUuid | common/match/pool.ts:149 | the keys are exactly the fetched pupils' `wix_id`s, each filed to a fetched pupil with it |
| MatchPool.EngineRun | common/match/pool.ts:144-159 | the engine is called once, on the Helpers of the unpaged student fetch and the Helpees of the unpaged pupil fetch, with the pool's settings |
| MatchPool.Plan | common/match/pool.ts:144-164 | fetch, convert, match and map back; the result's properties are those of `MapBack` |
| MatchPool.Resolve | common/match/pool.ts:161-164 | `assertExists` throws exactly when some engine uuid is unknown; otherwise one pairing per engine match, in engine order |
| MatchPool.MapBack | common/match/pool.ts:159-164 | the mapping fails exactly when the engine names a uuid that was not fetched; otherwise each engine match becomes a pairing of fetched rows with exactly those uuids, and the stats are passed through |
| MatchPool.CommitAll | common/match/pool.ts:171-173 | at most one `createMatch` call per pairing; a failed commit made at least one call |
| MatchPool.CommitCallsPrefix | common/match/pool.ts:171-173 | the calls follow the pairings' order, and all pairings are committed unless a call throws |
| MatchPool.CommitStopsAtFailure | common/match/pool.ts:171-173 | a failing commit stops at the first call that throws; the earlier calls' effects stand (no rollback) |
| MatchPool.CommitMatches | common/match/pool.ts:169-177 | the commit loop makes exactly the calls and store changes of `CommitAll` |
| MatchPool.Commit | common/match/pool.ts:169-183 | a dry run makes no calls and reports commit time 0; an applied run succeeds exactly when every planned pairing was committed; the reported phase times are the elapsed ones; the result's stats and matches are the planned ones; a successful applied run logs one created line with the commit time, any other outcome logs nothing more |
| MatchPool.CommitPhase | common/match/pool.ts:169-177 | the commit phase, step by step, equals `Commit` |
| MatchPool.Run | common/match/pool.ts:134-184 | look the pool up, log, prepare, match, map back, commit; its properties are `RunOutcomes`, `CommitLogReportsCommitTime` and `FailedRunLogsNoCreated` |
| MatchPool.RunOutcomes | common/match/pool.ts:134-184 | unknown pool exactly when no pool has the name; a dry run changes nothing; an applied successful run committed every match; the result is the plan of the first pool with that name |
| MatchPool.RunMatching | common/match/pool.ts:134-184 | the run, phase by phase and log line by log line, equals the specification `Run` |
| MatchPool.DryRunRepeatable | common/match/pool.ts:134-184 | a dry run makes no `createMatch` call and leaves the store alone; with the engine a function of its inputs, repeating it on that store gives the same outcome |
| MatchPool.CommitAsWritten | common/match/pool.ts:176 | the commit phase as written: same result as `Commit`, and the lines logged before it are kept |
| MatchPool.CommitLogMisreports | common/match/pool.ts:167-176 | as written, the created line repeats the duration of the calculated line before it, which differs from the commit time the run returns whenever the two phase times differ |
| MatchPool.CommitLogReportsCommitTime | common/match/pool.ts:140-183 | a committed run logs started, found (with the counts of the pool's pupils and students and the preparation time), calculated with the matching time, and created with the commit time it returns; a dry run logs the first three |
| MatchPool.FailedRunLogsNoCreated | common/match/pool.ts:140-177 | a run that throws logs at most the started, found and calculated lines, never a created line |
| MatchPool.Decide | common/match/pool.ts:190-204 | a pool is run exactly when it is automatic and both thresholds are met; non-automatic pools are not counted; students are counted only once the pupil threshold holds |
| MatchPool.Gate | common/match/pool.ts:186-210 | the loop over the registry from a position on; its properties are the `Gate*` lemmas below |
| MatchPool.GateRunsOnlyAutomatic | common/match/pool.ts:189-207 | every run the gate starts is for a pool it reached without an earlier failure, that is automatic and met both thresholds on the store the gate held there; the run itself is of the first pool with that name (`RunOutcomes`) |
| MatchPool.GateIgnoresManualPools | common/match/pool.ts:189-192 | with no automatic pool the gate does nothing |
| MatchPool.GateSkipsBelowThreshold | common/match/pool.ts:194-204 | a pool below either threshold, wherever it stands, is counted (the pupils alone when they fall short, else both) but not run, and the gate goes on with the next pool on the same store |
| MatchPool.GatePool | common/match/pool.ts:190-206 | one iteration of the loop makes the counts and the run that the specification `Gate` makes |
| MatchPool.RunAutomaticMatching | common/match/pool.ts:186-210 | the loop equals the specification `Gate` over all pools, in registry order, ending at the first failed run |
| Participants.Added | common/appointment/participants.ts:24-38 | a lecture of the subcourse lists the user in the role afterwards; only an absent user is appended; the other list and the other subcourses' lectures are untouched |
| Participants.FirstConflict | common/appointment/participants.ts:24-38 | the position of the first lecture the add throws at; no earlier lecture conflicts |
| Participants.AddResult | common/appointment/participants.ts:24-38 | the table keeps its length; each lecture before the first conflict is `Added`, the rest are untouched |
| Participants.AddError | common/appointment/participants.ts:31-33 | the conflict at `FirstConflict`, if there is one |
| Participants.AddReachesEverySubcourseLecture | common/appointment/participants.ts:24-38 | an add that does not throw lists the user in every lecture of the subcourse and touches no other lecture |
| Participants.AddStopsAtConflict | common/appointment/participants.ts:31-33 | an add that throws does so at the first lecture where the user holds the other role; that lecture and later ones are untouched; earlier ones were updated |
| Participants.AddNeverMakesBothRoles | common/appointment/participants.ts:24-79 | neither add makes anyone both participant and organizer of a lecture |
| Participants.AddKeepsRolesDisjoint | common/appointment/participants.ts:24-79 | both adds preserve the invariant that no lecture has a user in both roles |
| Participants.AddIdempotent | common/appointment/participants.ts:26-29 | repeating an add that did not throw changes nothing and does not throw |
| Participants.Without | common/appointment/participants.ts:46 | the filter removes every occurrence of the id and keeps every other id with its multiplicity |
| Participants.WithoutConcat | common/appointment/participants.ts:46 | the filter keeps the order of what it keeps: filtering a concatenation filters each part |
| Participants.WithoutAppended | common/appointment/participants.ts:46 | removing an appended id is the same as removing it before the append |
| Participants.WithoutAbsent | common/appointment/participants.ts:46 | removing an absent id keeps the list as it was |
| Participants.ParticipantRemoved | common/appointment/participants.ts:40-55 | a lecture of the subcourse that has not started gets its participant list filtered by `Without`: the user gone, the others kept in order; other lectures and the organizers are unchanged |
| Participants.OrganizerRemoved | common/appointment/participants.ts:81-97 | every lecture of the subcourse, whatever its start, gets its organizer list filtered by `Without`; participants are unchanged |
| Participants.RemoveUndoesAdd | common/appointment/participants.ts:24-55 | removing a participant just added restores every lecture that has not started |
| Participants.RemoveUndoesAddOrganizer | common/appointment/participants.ts:57-97 | removing an organizer just added restores the table |
| Participants.Appointments.IsAppointmentParticipant | common/appointment/participants.ts:10-22 | true exactly when a lecture with the appointment's id lists the user's id as participant |
| Participants.Appointments.AddGroupAppointmentsParticipant | common/appointment/participants.ts:24-38 | the new table and the error are the specification's `AddResult` and `AddError` for a participant |
| Participants.Appointments.AddGroupAppointmentsOrganizer | common/appointment/participants.ts:57-79 | the student's user id is added as organizer, per `AddResult` and `AddError` |
| Participants.Appointments.AddOrganizer | common/appointment/participants.ts:60-73 | the organizer loop: participant check before the organizer check, per `AddResult` and `AddError` |
| Participants.Appointments.RemoveGroupAppointmentsParticipant | common/appointment/participants.ts:40-55 | every lecture becomes `ParticipantRemoved` of what it was |
| Participants.Appointments.RemoveGroupAppointmentsOrganizer | common/appointment/participants.ts:81-97 | every lecture becomes `OrganizerRemoved` of what it was |
| Activation.DissolveOpen | common/pupil/activation.ts:34-43 | the match table keeps its length, row ids and pupils; no open match of the pupil is left |
| Activation.DissolveEffects | common/pupil/activation.ts:41-43 | exactly one dissolution per open match of the pupil (`OpenCount`), each with reason 0 |
| Activation.OpenCountZero | common/pupil/activation.ts:41-43 | the number of dissolutions is 0 exactly when the pupil has no open match |
| Activation.DissolveEffectsAppend | common/pupil/activation.ts:41-43 | dissolving two stretches of the table one after the other gives the effects of the whole table |
| Activation.Activation | common/pupil/activation.ts:9-22 | fails exactly when the record is already active or the row is missing, changing nothing then; never touches matches; a success returns the active row it stored |
| Activation.Deactivation | common/pupil/activation.ts:24-53 | fails exactly when the record is inactive or the row is missing; an inactive record changes nothing; otherwise the open matches are dissolved; a success returns the inactive row it stored |
| Activation.DissolveEffectsNameOpenMatches | common/pupil/activation.ts:34-43 | exactly the pupil's open matches are dissolved |
| Activation.RedundantCallsChangeNothing | common/pupil/activation.ts:9-27 | activating an active pupil, or deactivating an inactive one, throws `RedundantError` and changes no row, match or notification |
| Activation.ActivationSetsOnlyTheFlag | common/pupil/activation.ts:14-21 | activation sets only that pupil's `active` flag and returns the updated row |
| Activation.DeactivationDissolvesOpenMatches | common/pupil/activation.ts:34-43 | deactivation leaves no open match of the pupil, dissolves each with reason 0, and touches no other match |
| Activation.DeactivationOrder | common/pupil/activation.ts:29-50 | the notification and the reminder cancel come first, then every dissolution, then the row write, then the transaction log, and nothing else |
| Activation.SecondCallFails | common/pupil/activation.ts:9-53 | either operation applied again to the record it returned throws |
| Activation.ActivateThenDeactivate | common/pupil/activation.ts:9-53 | activating and then deactivating restores the pupil table; only the pupil's open matches changed (now dissolved) |
| Activation.Database.ActivatePupil | common/pupil/activation.ts:9-22 | the database and the result equal the specification `Activation`, guarded by the caller's record |
| Activation.Database.DissolveMatchesOf | common/pupil/activation.ts:34-43 | the loop dissolves exactly the pupil's open matches, in table order, recording one dissolution each, and leaves the pupil rows alone |
| Activation.Database.DissolveAt | common/pupil/activation.ts:41-43 | one iteration: the row is dissolved and recorded when it is an open match of the pupil, nothing else changes |
| Activation.Database.DeactivatePupil | common/pupil/activation.ts:24-53 | the database and the result equal the specification `Deactivation`, and the caller's record is inactive afterwards |

## Left out

- The matching engine (`match` from `corona-school-matching`) is a parameter. Its promises of exclusive pairings and respected exclusions are not modelled, only how its result is used.
- Prisma's meaning of a `where` filter is a parameter (`selectsStudent`, `selectsPupil`). The filters are modelled as data: their keys and conditions. What a condition selects is not modelled.
- `parseSubjectString`, `gradeAsInt` and `DEFAULT_TUTORING_GRADERESTRICTIONS` are parameters; their bodies are not part of this model.
- `createMatch` (`common/match/create`) is a parameter returning the new store, or nothing when it throws.
- Logging is modelled only for `runMatching`'s four info lines (`MatchPool.LogLine`); the gate's log lines are not modelled. Notifications (`Notification.actionTaken`, `cancelRemindersFor`) and `logTransaction` are modelled only by the order in which activation and deactivation call them; their content is not modelled.
- Zoom calls in the organizer operations are not modelled, because they go to an external service.
- `dissolveMatch` (`common/match/dissolve`) is not part of this model. Its effect on the match row is modelled as dissolved with reason 0.
- `Date.now()` is not modelled; each phase's duration is a parameter (`elapsed`). `new Date()` in the participant removal is the parameter `now`.
- `Promise.all` in `runMatching` (`common/match/pool.ts:152-153`) only converts the fetched rows into Helpers and Helpees and writes nothing; the model maps them in order. In both removals it updates each lecture once, one row per update, and the model does these updates one after the other. Interleaving and partial failure of concurrent writes are not modelled.
- Database failures other than a missing pupil row are not modelled.
- MatchPool.Commit: logs the created line with `timing.commit`, the corrected line of the finding below, and so do `Run`, `RunMatching`, `CommitPhase`, `Gate` and `RunAutomaticMatching`, which use it. The line as `common/match/pool.ts:176` writes it, with `timing.matching`, is `MatchPool.CommitAsWritten`, which no run uses.
- UserIds.RowsWithIds: an id that `parseInt` reads as NaN (`"student/abc"`) is assumed to match no row. The source passes it to Prisma's `id: { in: … }` unchecked, and whether Prisma then matches nothing or rejects the query with an error is not modelled.
- Activation.Database.DissolveMatchesOf: the `findMany` of the pupil's open matches (`common/pupil/activation.ts:34-39`) has no `orderBy`, so the database gives no order; the model dissolves them in table order, and `DissolveEffects`, `DissolveMatchesOf` and `DeactivationOrder` list the dissolutions in that order. What does not depend on it: which matches are dissolved (`DissolveOpen`, `DeactivationDissolvesOpenMatches`), how many (`OpenCount`, `OpenCountZero`), and the phases of `DeactivationOrder` (notice, reminders, dissolutions, row write, log).
- UserIds.GetUsers: the `findMany` calls of `getUsers`, `getStudentsFromList` and `getPupilsFromList` (`common/user/index.ts:210`, `228`, `262`, `269`) have no `orderBy`, so the database gives no order; `RowsWithIds` returns rows in table order, and `GetUsers` and `AccountsFromList` pin that sequence. What does not depend on it: which rows are returned (`RowsWithIds`, `AccountsFromList`), and that every student comes before every pupil in `getUsers`.
- MatchPool.DryRunRepeatable: the engine is modelled as a function of its inputs and each fetch returns rows in table order, so repeating a dry run on the same store gives the same outcome by construction. Whether the real engine and Prisma's row order are deterministic between calls is not modelled.
- UserIds.ParseIntOfIntToString: ids are unbounded integers. JavaScript writes numbers from 1e21 up in exponent form and is inexact beyond 2^53, where this round trip fails. Ids are database integers far below that bound.
- UserIds.ParseUserIdOfUserId: holds for unbounded integers, like `ParseIntOfIntToString`; JavaScript's number width and exponent notation are not modelled.
- UserIds.UserForType: its parse-back clause holds for unbounded integers; JavaScript's number width and exponent notation are not modelled.
- UserIds.ParseInt: leading whitespace, which JavaScript's `parseInt` skips, is not modelled; neither is the NaN-versus-undefined distinction.
- Participants.ParticipantRemoved: the `hasSome: userId` condition of the lecture query is read as "the participant list contains the user".
- Participants.Appointments.AddGroupAppointmentsParticipant: lectures are visited in table order, because `findMany` without `orderBy` gives no order.
- Activation.Database.ActivatePupil: the caller's in-memory record is not updated by `activatePupil`, and the model keeps that. A second activation with the same stale record passes the guard again.
- `getUser`, `getUserByEmail`, `getStudent`, `getPupil`, `updateUser`, `updateLastLogin` and the other functions of `common/user/index.ts` outside the ones above are not modelled.

## Findings

| source | as written | input that shows it | evidently intended | confidence | as-written member | corrected member |
|---|---|---|---|---|---|---|
| common/match/pool.ts:176 | the created log line after the commit reports `timing.matching` | any applied run whose matching and commit phases take different times, e.g. 5 ms and 7 ms | report `timing.commit`, the time the commit took | high; not executed | MatchPool.CommitLogMisreports | MatchPool.CommitLogReportsCommitTime |

=== FILE: activation.dfy ===
/** Activating and deactivating a pupil (common/pupil/activation.ts).

    The database holds the pupil rows and the match rows and records every
    write and external call in order, so that the order of the effects can be
    stated. The pupil passed in is the caller's in-memory record: its `active`
    flag is what the guards read, and deactivation clears it. */
module Activation {
  import opened Wrappers

  datatype PupilRow = PupilRow(id: int, active: bool, firstname: string, lastname: string, email: string)

  /** A match row; `dissolveReason` is `None` while the match is open. */
  datatype MatchRow = MatchRow(id: int, pupilId: int, studentId: int, dissolved: bool, dissolveReason: Option<int>)

  /** The effects, in the order they happen. */
  datatype Effect =
    | AccountDeactivatedNotice(pupilId: int)
    | RemindersCancelled(pupilId: int)
    | MatchDissolved(matchId: int, reason: int)
    | PupilActiveSet(pupilId: int, active: bool)
    | TransactionLogged(pupilId: int, newStatus: bool)

  datatype ActivationError =
    | RedundantError(message: string)
    | PupilNotFound(pupilId: int)

  /** Everything an operation leaves behind. */
  datatype Outcome = Outcome(
    pupils: map<int, PupilRow>, matches: seq<MatchRow>, effects: seq<Effect>, result: Result<PupilRow, ActivationError>)

  /** A match of the pupil that is still open. */
  predicate Open(m: MatchRow, pupilId: int) {
    !m.dissolved && m.pupilId == pupilId
  }

  /** `dissolveMatch(match, 0, pupil)` on the row. */
  function Dissolved(m: MatchRow): MatchRow {
    m.(dissolved := true, dissolveReason := Some(0))
  }

  /** A row after deactivation: dissolved if it was an open match of the
      pupil, as it was otherwise. */
  function DissolvedIfOpen(m: MatchRow, pupilId: int): MatchRow {
    if Open(m, pupilId) then Dissolved(m) else m
  }

  /** The match table after the pupil's open matches are dissolved. */
  function DissolveOpen(ms: seq<MatchRow>, pupilId: int): (r: seq<MatchRow>)
    ensures |r| == |ms|
    ensures forall j :: 0 <= j < |r| ==> !Open(r[j], pupilId) && r[j].id == ms[j].id && r[j].pupilId == ms[j].pupilId
  {
    seq(|ms|, j requires 0 <= j < |ms| => DissolvedIfOpen(ms[j], pupilId))
  }

  /** The number of open matches of the pupil. */
  function OpenCount(ms: seq<MatchRow>, pupilId: int): nat {
    if ms == [] then 0
    else OpenCount(ms[..|ms| - 1], pupilId) + (if Open(ms[|ms| - 1], pupilId) then 1 else 0)
  }

  /** The count is 0 exactly when the pupil has no open match. */
  lemma {:induction false} OpenCountZero(ms: seq<MatchRow>, pupilId: int)
    ensures OpenCount(ms, pupilId) == 0 <==> forall j :: 0 <= j < |ms| ==> !Open(ms[j], pupilId)
  {
    if ms != [] {
      var init := ms[..|ms| - 1];
      OpenCountZero(init, pupilId);
      assert forall j :: 0 <= j < |init| ==> init[j] == ms[j];
    }
  }

  /** One dissolution effect per open match of the pupil, in table order. */
  function DissolveEffects(ms: seq<MatchRow>, pupilId: int): (effects: seq<Effect>)
    ensures |effects| == OpenCount(ms, pupilId)
    ensures forall e :: e in effects ==> e.MatchDissolved? && e.reason == 0
  {
    if ms == [] then []
    else
      var last := ms[|ms| - 1];
      DissolveEffects(ms[..|ms| - 1], pupilId) + (if Open(last, pupilId) then [MatchDissolved(last.id, 0)] else [])
  }

  /** `activatePupil`: it fails exactly when the record is already active
      or the row is missing, and a failure changes nothing. */
  function Activation(active: bool, pupilId: int, pupils: map<int, PupilRow>, matches: seq<MatchRow>, effects: seq<Effect>)
    : (o: Outcome)
    ensures o.result.Err? <==> active || pupilId !in pupils
    ensures o.result.Err? ==> o.pupils == pupils && o.effects == effects
    ensures o.matches == matches
    ensures o.result.Ok? ==> o.result.value.active && pupilId in o.pupils && o.pupils[pupilId] == o.result.value
  {
    if active then Outcome(pupils, matches, effects, Err(RedundantError("Pupil was already activated")))
    else if pupilId !in pupils then Outcome(pupils, matches, effects, Err(PupilNotFound(pupilId)))
    else
      var row := pupils[pupilId].(active := true);
      Outcome(pupils[pupilId := row], matches, effects + [PupilActiveSet(pupilId, true), TransactionLogged(pupilId, true)], Ok(row))
  }

  /** `deactivatePupil`: the notifications, then the dissolutions, then the
      row update; a missing row fails only after the dissolutions. */
  function Deactivation(active: bool, pupilId: int, pupils: map<int, PupilRow>, matches: seq<MatchRow>, effects: seq<Effect>)
    : (o: Outcome)
    ensures o.result.Err? <==> !active || pupilId !in pupils
    ensures !active ==> o.pupils == pupils && o.matches == matches && o.effects == effects
    ensures active ==> o.matches == DissolveOpen(matches, pupilId)
    ensures o.result.Ok? ==> !o.result.value.active && pupilId in o.pupils && o.pupils[pupilId] == o.result.value
  {
    if !active then Outcome(pupils, matches, effects, Err(RedundantError("Pupil was already deactivated")))
    else
      var dissolved := DissolveOpen(matches, pupilId);
      var before := effects + [AccountDeactivatedNotice(pupilId)] + [RemindersCancelled(pupilId)] + DissolveEffects(matches, pupilId);
      if pupilId !in pupils then Outcome(pupils, dissolved, before, Err(PupilNotFound(pupilId)))
      else
        var row := pupils[pupilId].(active := false);
        Outcome(pupils[pupilId := row], dissolved, before + [PupilActiveSet(pupilId, false)] + [TransactionLogged(pupilId, false)], Ok(row))
  }

  // ---------------------------------------------------------------------
  // Properties
  // ---------------------------------------------------------------------

  /** A redundant call throws `RedundantError` and changes nothing: no row,
      no match, no notification. */
  lemma RedundantCallsChangeNothing(pupilId: int, pupils: map<int, PupilRow>, matches: seq<MatchRow>, effects: seq<Effect>)
    ensures Activation(true, pupilId, pupils, matches, effects) ==
      Outcome(pupils, matches, effects, Err(RedundantError("Pupil was already activated")))
    ensures Deactivation(false, pupilId, pupils, matches, effects) ==
      Outcome(pupils, matches, effects, Err(RedundantError("Pupil was already deactivated")))
  {
  }

  /** Activation sets the flag of that row only and returns the row. */
  lemma ActivationSetsOnlyTheFlag(pupilId: int, pupils: map<int, PupilRow>, matches: seq<MatchRow>, effects: seq<Effect>)
    requires pupilId in pupils
    ensures var o := Activation(false, pupilId, pupils, matches, effects);
      && o.result == Ok(o.pupils[pupilId])
      && o.pupils[pupilId] == pupils[pupilId].(active := true)
      && o.pupils.Keys == pupils.Keys
      && (forall id :: id in pupils && id != pupilId ==> o.pupils[id] == pupils[id])
      && o.matches == matches
  {
  }

  /** Deactivation leaves no open match of the pupil, dissolves each of them
      with reason 0, and touches no other match. */
  lemma {:induction false} DeactivationDissolvesOpenMatches(pupilId: int, pupils: map<int, PupilRow>, matches: seq<MatchRow>, effects: seq<Effect>)
    ensures var o := Deactivation(true, pupilId, pupils, matches, effects);
      && |o.matches| == |matches|
      && (forall j :: 0 <= j < |matches| ==> !Open(o.matches[j], pupilId))
      && (forall j :: 0 <= j < |matches| && Open(matches[j], pupilId) ==>
            o.matches[j].dissolved && o.matches[j].dissolveReason == Some(0) &&
            o.matches[j].id == matches[j].id && o.matches[j].studentId == matches[j].studentId)
      && (forall j :: 0 <= j < |matches| && !Open(matches[j], pupilId) ==> o.matches[j] == matches[j])
  {
    var o := Deactivation(true, pupilId, pupils, matches, effects);
    assert o.matches == DissolveOpen(matches, pupilId);
  }

  /** The dissolution effects name exactly the pupil's open matches. */
  lemma {:induction false} DissolveEffectsNameOpenMatches(ms: seq<MatchRow>, pupilId: int)
    ensures forall id :: MatchDissolved(id, 0) in DissolveEffects(ms, pupilId) <==>
      exists j :: 0 <= j < |ms| && Open(ms[j], pupilId) && ms[j].id == id
  {
    if ms != [] {
      var init := ms[..|ms| - 1];
      DissolveEffectsNameOpenMatches(init, pupilId);
      forall id
        ensures MatchDissolved(id, 0) in DissolveEffects(ms, pupilId) <==>
          exists j :: 0 <= j < |ms| && Open(ms[j], pupilId) && ms[j].id == id
      {
        if MatchDissolved(id, 0) in DissolveEffects(init, pupilId) {
          var j :| 0 <= j < |init| && Open(init[j], pupilId) && init[j].id == id;
          assert ms[j] == init[j];
        }
        if exists j :: 0 <= j < |ms| && Open(ms[j], pupilId) && ms[j].id == id {
          var j :| 0 <= j < |ms| && Open(ms[j], pupilId) && ms[j].id == id;
          if j < |ms| - 1 {
            assert init[j] == ms[j];
          }
        }
      }
    }
  }

  /** Dissolving two stretches of the table one after the other gives the
      effects of the whole table. */
  lemma {:induction false} DissolveEffectsAppend(a: seq<MatchRow>, b: seq<MatchRow>, pupilId: int)
    ensures DissolveEffects(a + b, pupilId) == DissolveEffects(a, pupilId) + DissolveEffects(b, pupilId)
    decreases |b|
  {
    if b == [] {
      assert a + b == a;
    } else {
      var init := b[..|b| - 1];
      var last := b[|b| - 1];
      assert (a + b)[..|a + b| - 1] == a + init && (a + b)[|a + b| - 1] == last;
      DissolveEffectsAppend(a, init, pupilId);
      var tail := if Open(last, pupilId) then [MatchDissolved(last.id, 0)] else [];
      var p, q := DissolveEffects(a, pupilId), DissolveEffects(init, pupilId);
      assert (p + q) + tail == p + (q + tail);
    }
  }

  /** Taking one more row of the table adds that row's dissolution, if it
      is an open match of the pupil. */
  lemma DissolveEffectsStep(ms: seq<MatchRow>, i: nat, pupilId: int)
    requires i < |ms|
    ensures DissolveEffects(ms[..i + 1], pupilId) ==
      DissolveEffects(ms[..i], pupilId) + (if Open(ms[i], pupilId) then [MatchDissolved(ms[i].id, 0)] else [])
  {
    assert ms[..i + 1][..i] == ms[..i];
  }

  /** A successful deactivation writes the pupil's flag only after every
      dissolution, and the notifications come before all of them. */
  lemma DeactivationOrder(pupilId: int, pupils: map<int, PupilRow>, matches: seq<MatchRow>, effects: seq<Effect>)
    requires pupilId in pupils
    ensures var o := Deactivation(true, pupilId, pupils, matches, effects);
      var added := o.effects[|effects|..];
      var n := |DissolveEffects(matches, pupilId)|;
      && o.effects[..|effects|] == effects
      && |added| == n + 4
      && added[0] == AccountDeactivatedNotice(pupilId)
      && added[1] == RemindersCancelled(pupilId)
      && (forall i :: 2 <= i < n + 2 ==> added[i].MatchDissolved?)
      && added[n + 2] == PupilActiveSet(pupilId, false)
      && added[n + 3] == TransactionLogged(pupilId, false)
      && o.result == Ok(pupils[pupilId].(active := false))
  {
    var o := Deactivation(true, pupilId, pupils, matches, effects);
    var ds := DissolveEffects(matches, pupilId);
    var added := [AccountDeactivatedNotice(pupilId), RemindersCancelled(pupilId)] + ds +
      [PupilActiveSet(pupilId, false), TransactionLogged(pupilId, false)];
    assert o.effects == effects + added;
    assert o.effects[|effects|..] == added;
    forall i | 2 <= i < |ds| + 2
      ensures added[i].MatchDissolved?
    {
      assert added[i] == ds[i - 2];
      assert ds[i - 2] in ds;
    }
  }

  /** Either operation, applied again to the record it returned, fails. */
  lemma SecondCallFails(pupilId: int, pupils: map<int, PupilRow>, matches: seq<MatchRow>, effects: seq<Effect>, active: bool)
    ensures var o := Activation(active, pupilId, pupils, matches, effects);
      o.result.Ok? ==> Activation(o.result.value.active, pupilId, o.pupils, o.matches, o.effects).result.Err?
    ensures var o := Deactivation(active, pupilId, pupils, matches, effects);
      o.result.Ok? ==> Deactivation(o.result.value.active, pupilId, o.pupils, o.matches, o.effects).result.Err?
  {
  }

  /** Activating an inactive pupil and deactivating the returned record
      restores the pupil's row; only the pupil's matches may have changed
      (the open ones are now dissolved). */
  lemma ActivateThenDeactivate(pupilId: int, pupils: map<int, PupilRow>, matches: seq<MatchRow>, effects: seq<Effect>)
    requires pupilId in pupils && !pupils[pupilId].active
    ensures var a := Activation(false, pupilId, pupils, matches, effects);
      var d := Deactivation(a.result.value.active, pupilId, a.pupils, a.matches, a.effects);
      a.result.Ok? && d.result == Ok(pupils[pupilId]) && d.pupils == pupils && d.matches == DissolveOpen(matches, pupilId)
  {
    var a := Activation(false, pupilId, pupils, matches, effects);
    var d := Deactivation(true, pupilId, a.pupils, matches, a.effects);
    assert d.pupils[pupilId] == pupils[pupilId];
    assert d.pupils == pupils;
  }

  // ---------------------------------------------------------------------
  // The database and the caller's record
  // ---------------------------------------------------------------------

  /** The caller's in-memory pupil record. */
  class Pupil {
    const id: int
    var active: bool

    constructor(id: int, active: bool)
      ensures this.id == id && this.active == active
    {
      this.id := id;
      this.active := active;
    }
  }

  class Database {
    var pupils: map<int, PupilRow>
    var matches: seq<MatchRow>
    var effects: seq<Effect>

    constructor(pupils: map<int, PupilRow>, matches: seq<MatchRow>)
      ensures this.pupils == pupils && this.matches == matches && this.effects == []
    {
      this.pupils := pupils;
      this.matches := matches;
      this.effects := [];
    }

    /** `activatePupil`. The guard reads the caller's record, which is left
        as it is. */
    method ActivatePupil(pupil: Pupil) returns (r: Result<PupilRow, ActivationError>)
      modifies this
      ensures var o := Activation(pupil.active, pupil.id, old(pupils), old(matches), old(effects));
        pupils == o.pupils && matches == o.matches && effects == o.effects && r == o.result
    {
      if pupil.active {
        return Err(RedundantError("Pupil was already activated"));
      }
      if pupil.id !in pupils {
        return Err(PupilNotFound(pupil.id));
      }
      var updated := pupils[pupil.id].(active := true);
      pupils := pupils[pupil.id := updated];
      effects := effects + [PupilActiveSet(pupil.id, true)];
      effects := effects + [TransactionLogged(pupil.id, true)];
      return Ok(updated);
    }

    /** `deactivatePupil`: after the guard, notify, clear the caller's flag,
        dissolve the pupil's open matches, then write the row. */
    method DeactivatePupil(pupil: Pupil) returns (r: Result<PupilRow, ActivationError>)
      modifies this, pupil
      ensures var o := Deactivation(old(pupil.active), pupil.id, old(pupils), old(matches), old(effects));
        pupils == o.pupils && matches == o.matches && effects == o.effects && r == o.result
      ensures !pupil.active
    {
      if !pupil.active {
        return Err(RedundantError("Pupil was already deactivated"));
      }
      effects := effects + [AccountDeactivatedNotice(pupil.id)];
      effects := effects + [RemindersCancelled(pupil.id)];
      pupil.active := false;

      DissolveMatchesOf(pupil.id);

      if pupil.id !in pupils {
        return Err(PupilNotFound(pupil.id));
      }
      var updated := pupils[pupil.id].(active := false);
      pupils := pupils[pupil.id := updated];
      effects := effects + [PupilActiveSet(pupil.id, false)];
      effects := effects + [TransactionLogged(pupil.id, false)];
      return Ok(updated);
    }

    /** The loop of `deactivatePupil`: dissolve the pupil's open matches one
        at a time, in table order. */
    method DissolveMatchesOf(pupilId: int)
      modifies this
      ensures pupils == old(pupils)
      ensures matches == DissolveOpen(old(matches), pupilId)
      ensures effects == old(effects) + DissolveEffects(old(matches), pupilId)
    {
      var i := 0;
      while i < |matches|
        invariant 0 <= i <= |matches| == |old(matches)|
        invariant forall j :: 0 <= j < i ==> matches[j] == DissolvedIfOpen(old(matches)[j], pupilId)
        invariant forall j :: i <= j < |matches| ==> matches[j] == old(matches)[j]
        invariant effects == old(effects) + DissolveEffects(old(matches)[..i], pupilId)
        invariant pupils == old(pupils)
      {
        DissolveEffectsStep(old(matches), i, pupilId);
        DissolveAt(i, pupilId);
        i := i + 1;
      }
      assert old(matches)[..i] == old(matches);
    }

    /** One iteration: dissolve row `i` if it is an open match of the
        pupil, recording the dissolution. */
    method DissolveAt(i: nat, pupilId: int)
      requires i < |matches|
      modifies this
      ensures pupils == old(pupils)
      ensures matches == old(matches)[i := DissolvedIfOpen(old(matches)[i], pupilId)]
      ensures effects == old(effects) +
        (if Open(old(matches)[i], pupilId) then [MatchDissolved(old(matches)[i].id, 0)] else [])
    {
      var m := matches[i];
      if !m.dissolved && m.pupilId == pupilId {
        matches := matches[i := Dissolved(m)];
        effects := effects + [MatchDissolved(m.id, 0)];
      }
    }
  }
}

=== FILE: match_pool.dfy ===
/** Matching pools (common/match/pool.ts): the pool registry, the filters
    that select students and pupils for a pool, the conversion of students
    and pupils into the matching engine's Helpers and Helpees, a matching run
    with its optional commit, and the daily automatic run.

    The database is an in-memory `Store`; what the code reaches only through
    calls whose bodies are not part of this model (the Prisma filter
    semantics, `parseSubjectString`, `gradeAsInt`, the default grade range,
    the matching engine and each pool's `createMatch`) is a parameter. */
module MatchPool {
  import opened Wrappers

  // ---------------------------------------------------------------------
  // Prisma filters
  // ---------------------------------------------------------------------

  datatype Value = Bool(b: bool) | Text(text: string) | Number(n: int) | Null

  /** The columns and relations the pool filters name (`OR` is Prisma's
      disjunction key). */
  datatype Field =
    | Active | Verification | Email
    | IsStudent | IsPupil | IsCodu | OpenMatchRequestCount | Subjects
    | Screening | Success | RegistrationSource | Or
    | TutoringInterestConfirmationRequest | Status

  /** One condition of a Prisma `where` input. */
  datatype Condition =
    | Is(value: Value)
    | Not(negated: Condition)
    | Contains(substring: string)
    | GreaterThan(bound: int)
    | Related(where: map<Field, Condition>)
    | AnyOf(alternatives: seq<map<Field, Condition>>)

  /** A `where` input: field to condition. */
  type Filter = map<Field, Condition>

  /** `viableUsers`: active, not awaiting verification, not a test account. */
  const ViableUsers: Filter :=
    map[Active := Is(Bool(true)),
        Verification := Is(Null),
        Email := Not(Contains("test@lern-fair.de"))]

  /** The object spread `{ ...base, ...overlay }`: every key of either, with
      the overlay's condition wherever the overlay names the key. */
  function Overlay(base: Filter, overlay: Filter): (r: Filter)
    ensures r.Keys == base.Keys + overlay.Keys
    ensures forall k :: k in overlay ==> r[k] == overlay[k]
    ensures forall k :: k in base && k !in overlay ==> r[k] == base[k]
  {
    base + overlay
  }

  // ---------------------------------------------------------------------
  // Rows of the database
  // ---------------------------------------------------------------------

  datatype Student = Student(
    id: int, wixId: string, openMatchRequestCount: int, subjects: string, createdAt: int, state: string)

  datatype Pupil = Pupil(
    id: int, wixId: string, openMatchRequestCount: int, subjects: string, createdAt: int, state: string,
    matchingPriority: int, grade: string)

  /** A match row with the `wix_id`s of its two sides, as the relation
      selects of `studentToHelper` / `pupilToHelpee` read them. */
  datatype MatchRecord = MatchRecord(
    studentId: int, pupilId: int, studentWixId: string, pupilWixId: string, dissolved: bool)

  datatype Store = Store(students: seq<Student>, pupils: seq<Pupil>, matches: seq<MatchRecord>)

  // ---------------------------------------------------------------------
  // Subjects and grade restrictions
  // ---------------------------------------------------------------------

  /** The optional `grade` of a parsed subject; `None` for null or undefined. */
  datatype GradeBounds = GradeBounds(min: Option<int>, max: Option<int>)

  /** A subject as `parseSubjectString` returns it. */
  datatype Subject = Subject(name: string, grade: Option<GradeBounds>)

  datatype GradeRestriction = GradeRestriction(min: int, max: int)

  datatype SubjectWithGradeRestriction = SubjectWithGradeRestriction(name: string, gradeRestriction: GradeRestriction)

  /** `subject.grade?.min`. */
  function MinBound(s: Subject): Option<int> {
    if s.grade.Some? then s.grade.value.min else None
  }

  /** `subject.grade?.max`. */
  function MaxBound(s: Subject): Option<int> {
    if s.grade.Some? then s.grade.value.max else None
  }

  /** `formattedSubjectToSubjectWithGradeRestriction`: the name is kept; each
      bound is kept when present (0 included) and otherwise replaced by the
      default, independently of the other bound. */
  function WithGradeRestriction(s: Subject, defaults: GradeRestriction): (r: SubjectWithGradeRestriction)
    ensures r.name == s.name
    ensures MinBound(s).Some? ==> r.gradeRestriction.min == MinBound(s).value
    ensures MinBound(s).None? ==> r.gradeRestriction.min == defaults.min
    ensures MaxBound(s).Some? ==> r.gradeRestriction.max == MaxBound(s).value
    ensures MaxBound(s).None? ==> r.gradeRestriction.max == defaults.max
  {
    var min := if MinBound(s).Some? then MinBound(s).value else defaults.min;
    var max := if MaxBound(s).Some? then MaxBound(s).value else defaults.max;
    SubjectWithGradeRestriction(s.name, GradeRestriction(min, max))
  }

  // ---------------------------------------------------------------------
  // The matching engine's entities
  // ---------------------------------------------------------------------

  /** The pool's `balancingCoefficients`. */
  datatype Settings = Settings(matchingPriority: int, state: int, subjectMatching: int, waitingTime: int)

  datatype Helper = Helper(
    id: int, uuid: string, matchRequestCount: int, subjects: seq<SubjectWithGradeRestriction>,
    createdAt: int, excludeMatchesWith: seq<string>, state: string)

  datatype Helpee = Helpee(
    id: int, uuid: string, matchRequestCount: int, subjects: seq<Subject>,
    createdAt: int, excludeMatchesWith: seq<string>, state: string, matchingPriority: int, grade: int)

  /** One pairing of the engine's result, by the two sides' uuids. */
  datatype EngineMatch = EngineMatch(helperUuid: string, helpeeUuid: string)

  /** The engine's statistics, carried through unread. */
  type Stats = map<string, int>

  datatype EngineResult = EngineResult(matches: seq<EngineMatch>, stats: Stats)

  /** Everything a run depends on that is not visible in pool.ts. */
  datatype Environment = Environment(
    selectsStudent: Filter -> Student -> bool,
    selectsPupil: Filter -> Pupil -> bool,
    parseSubjects: string -> seq<Subject>,
    gradeAsInt: string -> int,
    defaultGrades: GradeRestriction,
    engine: (seq<Helper>, seq<Helpee>, Settings) -> EngineResult)

  // ---------------------------------------------------------------------
  // Pools
  // ---------------------------------------------------------------------

  datatype Thresholds = Thresholds(minStudents: int, minPupils: int)

  /** A pool's `createMatch(pupil, student)`: the store after the call, or
      `None` when it throws. */
  type CreateMatch = (Store, Pupil, Student) -> Option<Store>

  datatype Pool = Pool(
    name: string,
    studentsToMatch: Filter,
    pupilsToMatch: Filter,
    settings: Settings,
    createMatch: CreateMatch,
    automatic: Option<Thresholds>)

  /** The pool "lern-fair-now", with the given `createMatch`. */
  function LernFairNow(createMatch: CreateMatch): Pool {
    Pool(
      "lern-fair-now",
      map[IsStudent := Is(Bool(true)),
          OpenMatchRequestCount := GreaterThan(0),
          Subjects := Not(Is(Text("[]"))),
          Screening := Related(map[Success := Is(Bool(true))]),
          IsCodu := Is(Bool(false))],
      map[IsPupil := Is(Bool(true)),
          OpenMatchRequestCount := GreaterThan(0),
          Subjects := Not(Is(Text("[]"))),
          RegistrationSource := Not(Is(Text("codu"))),
          Or := AnyOf([
            map[RegistrationSource := Is(Text("cooperation"))],
            map[TutoringInterestConfirmationRequest := Related(map[Status := Is(Text("confirmed"))])]])],
      Settings(1, 1, 1, 1),
      createMatch,
      None)
  }

  /** `pools`: the registry. */
  function Registry(createMatch: CreateMatch): seq<Pool> {
    [LernFairNow(createMatch)]
  }

  /** `pools.find(it => it.name === poolName)`: the index of the first pool
      with that name. */
  function FindPool(pools: seq<Pool>, name: string): (r: Option<nat>)
    ensures r.None? <==> forall i :: 0 <= i < |pools| ==> pools[i].name != name
    ensures r.Some? ==>
      r.value < |pools| && pools[r.value].name == name &&
      (forall i :: 0 <= i < r.value ==> pools[i].name != name)
  {
    if pools == [] then None
    else if pools[0].name == name then Some(0)
    else
      var r := FindPool(pools[1..], name);
      if r.None? then None else Some(r.value + 1)
  }

  /** With distinct names every pool is found under its own name. */
  lemma FindPoolDistinct(pools: seq<Pool>, i: nat)
    requires i < |pools|
    requires forall j, k :: 0 <= j < k < |pools| ==> pools[j].name != pools[k].name
    ensures FindPool(pools, pools[i].name) == Some(i)
  {
  }

  /** The registry knows "lern-fair-now" and nothing else, and the pool it
      holds never runs automatically. */
  lemma RegistryLookup(createMatch: CreateMatch, name: string)
    ensures FindPool(Registry(createMatch), name) == if name == "lern-fair-now" then Some(0) else None
    ensures Registry(createMatch)[0].automatic.None?
  {
  }

  /** The filters a pool's students and pupils are fetched and counted with. */
  function StudentFilter(pool: Pool): Filter {
    Overlay(ViableUsers, pool.studentsToMatch)
  }

  function PupilFilter(pool: Pool): Filter {
    Overlay(ViableUsers, pool.pupilsToMatch)
  }

  /** The registry's pool leaves every viability condition in force. */
  lemma RegistryKeepsViability(createMatch: CreateMatch)
    ensures var pool := LernFairNow(createMatch);
      forall k :: k in ViableUsers ==>
        && k in StudentFilter(pool) && StudentFilter(pool)[k] == ViableUsers[k]
        && k in PupilFilter(pool) && PupilFilter(pool)[k] == ViableUsers[k]
  {
    var pool := LernFairNow(createMatch);
    assert ViableUsers.Keys == {Active, Verification, Email};
    OverlayKeeps(ViableUsers, pool.studentsToMatch);
    OverlayKeeps(ViableUsers, pool.pupilsToMatch);
  }

  /** An overlay that names none of the base's keys keeps all of them. */
  lemma OverlayKeeps(base: Filter, overlay: Filter)
    requires forall k :: k in base ==> k !in overlay
    ensures forall k :: k in base ==> k in Overlay(base, overlay) && Overlay(base, overlay)[k] == base[k]
  {
  }

  // ---------------------------------------------------------------------
  // Fetching and counting (getStudents, getPupils, get*Count)
  // ---------------------------------------------------------------------

  /** `findMany({ where })`: the rows that satisfy the condition, in table
      order. */
  function Where<R(!new)>(rows: seq<R>, keep: R -> bool): (r: seq<R>)
    ensures |r| <= |rows|
    ensures forall x :: x in r <==> x in rows && keep(x)
  {
    if rows == [] then []
    else
      assert forall x :: x in rows <==> x == rows[0] || x in rows[1..];
      (if keep(rows[0]) then [rows[0]] else []) + Where(rows[1..], keep)
  }

  /** `count({ where })`. */
  function CountWhere<R(!new)>(rows: seq<R>, keep: R -> bool): nat {
    if rows == [] then 0
    else (if keep(rows[0]) then 1 else 0) + CountWhere(rows[1..], keep)
  }

  /** Counting and fetching under the same condition agree. */
  lemma {:induction false} CountIsFetchLength<R(!new)>(rows: seq<R>, keep: R -> bool)
    ensures CountWhere(rows, keep) == |Where(rows, keep)|
  {
    if rows != [] {
      CountIsFetchLength(rows[1..], keep);
    }
  }

  /** `take` / `skip`: skip first, then take. */
  function Page<R(!new)>(rows: seq<R>, take: Option<nat>, skip: Option<nat>): (r: seq<R>)
    ensures take.None? && skip.None? ==> r == rows
    ensures take.Some? ==> |r| <= take.value
    ensures forall x :: x in r ==> x in rows
  {
    var start := if skip.None? then 0 else if skip.value <= |rows| then skip.value else |rows|;
    var rest := rows[start..];
    if take.Some? && take.value < |rest| then rest[..take.value] else rest
  }

  /** The page is the window of the rows that starts after the skipped
      ones (all of them when `skip` passes the end) and holds `take` rows,
      or all that remain when fewer are left or `take` is absent. */
  lemma PageWindow<R(!new)>(rows: seq<R>, take: Option<nat>, skip: Option<nat>)
    ensures var s := if skip.None? then 0 else if skip.value <= |rows| then skip.value else |rows|;
      var left := |rows| - s;
      var r := Page(rows, take, skip);
      && |r| == (if take.Some? && take.value < left then take.value else left)
      && forall k :: 0 <= k < |r| ==> r[k] == rows[s + k]
  {
  }

  function GetStudents(env: Environment, store: Store, pool: Pool, take: Option<nat>, skip: Option<nat>): seq<Student> {
    Page(Where(store.students, env.selectsStudent(StudentFilter(pool))), take, skip)
  }

  function GetPupils(env: Environment, store: Store, pool: Pool, take: Option<nat>, skip: Option<nat>): seq<Pupil> {
    Page(Where(store.pupils, env.selectsPupil(PupilFilter(pool))), take, skip)
  }

  function GetStudentCount(env: Environment, store: Store, pool: Pool): nat {
    CountWhere(store.students, env.selectsStudent(StudentFilter(pool)))
  }

  function GetPupilCount(env: Environment, store: Store, pool: Pool): nat {
    CountWhere(store.pupils, env.selectsPupil(PupilFilter(pool)))
  }

  /** The counts are the sizes of the unpaged fetches: both use the same
      merged filter. */
  lemma CountsMatchFetches(env: Environment, store: Store, pool: Pool)
    ensures GetStudentCount(env, store, pool) == |GetStudents(env, store, pool, None, None)|
    ensures GetPupilCount(env, store, pool) == |GetPupils(env, store, pool, None, None)|
  {
    CountIsFetchLength(store.students, env.selectsStudent(StudentFilter(pool)));
    CountIsFetchLength(store.pupils, env.selectsPupil(PupilFilter(pool)));
  }

  // ---------------------------------------------------------------------
  // studentToHelper / pupilToHelpee
  // ---------------------------------------------------------------------

  /** The pupil `wix_id` of every match of the student, dissolved or not, in
      table order. */
  function PupilsMatchedWith(matches: seq<MatchRecord>, studentId: int): (uuids: seq<string>)
    ensures |uuids| <= |matches|
    ensures forall u :: u in uuids <==> exists m :: m in matches && m.studentId == studentId && m.pupilWixId == u
  {
    if matches == [] then []
    else
      assert forall m :: m in matches <==> m == matches[0] || m in matches[1..];
      (if matches[0].studentId == studentId then [matches[0].pupilWixId] else []) +
        PupilsMatchedWith(matches[1..], studentId)
  }

  /** The student `wix_id` of every match of the pupil, dissolved or not. */
  function StudentsMatchedWith(matches: seq<MatchRecord>, pupilId: int): (uuids: seq<string>)
    ensures |uuids| <= |matches|
    ensures forall u :: u in uuids <==> exists m :: m in matches && m.pupilId == pupilId && m.studentWixId == u
  {
    if matches == [] then []
    else
      assert forall m :: m in matches <==> m == matches[0] || m in matches[1..];
      (if matches[0].pupilId == pupilId then [matches[0].studentWixId] else []) +
        StudentsMatchedWith(matches[1..], pupilId)
  }

  /** The exclusion lists do not depend on whether matches are dissolved. */
  lemma {:induction false} ExclusionsIgnoreDissolved(ms: seq<MatchRecord>, ms': seq<MatchRecord>, studentId: int, pupilId: int)
    requires |ms| == |ms'|
    requires forall i :: 0 <= i < |ms| ==> ms'[i] == ms[i].(dissolved := ms'[i].dissolved)
    ensures PupilsMatchedWith(ms, studentId) == PupilsMatchedWith(ms', studentId)
    ensures StudentsMatchedWith(ms, pupilId) == StudentsMatchedWith(ms', pupilId)
  {
    if ms != [] {
      ExclusionsIgnoreDissolved(ms[1..], ms'[1..], studentId, pupilId);
    }
  }

  /** `studentToHelper`: the student's own fields, its subjects each passed
      through the grade defaulting in order, and an exclusion for every
      pupil it was ever matched with. */
  function StudentToHelper(env: Environment, matches: seq<MatchRecord>, s: Student): (h: Helper)
    ensures h.id == s.id && h.uuid == s.wixId && h.matchRequestCount == s.openMatchRequestCount
    ensures h.createdAt == s.createdAt && h.state == s.state
    ensures |h.subjects| == |env.parseSubjects(s.subjects)|
    ensures forall i :: 0 <= i < |h.subjects| ==>
      h.subjects[i] == WithGradeRestriction(env.parseSubjects(s.subjects)[i], env.defaultGrades)
    ensures forall u :: u in h.excludeMatchesWith <==>
      exists m :: m in matches && m.studentId == s.id && m.pupilWixId == u
  {
    var parsed := env.parseSubjects(s.subjects);
    Helper(
      s.id, s.wixId, s.openMatchRequestCount,
      seq(|parsed|, i requires 0 <= i < |parsed| => WithGradeRestriction(parsed[i], env.defaultGrades)),
      s.createdAt, PupilsMatchedWith(matches, s.id), s.state)
  }

  /** `pupilToHelpee`: the pupil's own fields, its parsed subjects unchanged
      (no defaulting), its grade read with `gradeAsInt`, and an exclusion for
      every student it was ever matched with. */
  function PupilToHelpee(env: Environment, matches: seq<MatchRecord>, p: Pupil): (h: Helpee)
    ensures h.id == p.id && h.uuid == p.wixId && h.matchRequestCount == p.openMatchRequestCount
    ensures h.createdAt == p.createdAt && h.state == p.state && h.matchingPriority == p.matchingPriority
    ensures h.subjects == env.parseSubjects(p.subjects)
    ensures h.grade == env.gradeAsInt(p.grade)
    ensures forall u :: u in h.excludeMatchesWith <==>
      exists m :: m in matches && m.pupilId == p.id && m.studentWixId == u
  {
    Helpee(
      p.id, p.wixId, p.openMatchRequestCount, env.parseSubjects(p.subjects),
      p.createdAt, StudentsMatchedWith(matches, p.id), p.state, p.matchingPriority, env.gradeAsInt(p.grade))
  }

  function Helpers(env: Environment, matches: seq<MatchRecord>, students: seq<Student>): (hs: seq<Helper>)
    ensures |hs| == |students|
    ensures forall i :: 0 <= i < |students| ==> hs[i] == StudentToHelper(env, matches, students[i])
  {
    seq(|students|, i requires 0 <= i < |students| => StudentToHelper(env, matches, students[i]))
  }

  function Helpees(env: Environment, matches: seq<MatchRecord>, pupils: seq<Pupil>): (hs: seq<Helpee>)
    ensures |hs| == |pupils|
    ensures forall i :: 0 <= i < |pupils| ==> hs[i] == PupilToHelpee(env, matches, pupils[i])
  {
    seq(|pupils|, i requires 0 <= i < |pupils| => PupilToHelpee(env, matches, pupils[i]))
  }

  // ---------------------------------------------------------------------
  // Mapping the engine's result back to rows
  // ---------------------------------------------------------------------

  /** `new Map(rows.map(it => [it.wix_id, it]))`: every row is filed under
      its key, later rows overwriting earlier rows with the same key. */
  function IndexBy<R(!new)>(rows: seq<R>, key: R -> string): (m: map<string, R>)
    ensures forall x :: x in rows ==> key(x) in m
    ensures forall u :: u in m ==> key(m[u]) == u && m[u] in rows
  {
    if rows == [] then map[]
    else
      var init := rows[..|rows| - 1];
      var last := rows[|rows| - 1];
      assert rows == init + [last];
      IndexBy(init, key)[key(last) := last]
  }

  /** The row filed under a key is the last row with that key. */
  lemma {:induction false} IndexByLastWins<R(!new)>(rows: seq<R>, key: R -> string, i: nat)
    requires i < |rows|
    requires forall j :: i < j < |rows| ==> key(rows[j]) != key(rows[i])
    ensures IndexBy(rows, key)[key(rows[i])] == rows[i]
  {
    if i < |rows| - 1 {
      var init := rows[..|rows| - 1];
      assert init[i] == rows[i];
      IndexByLastWins(init, key, i);
    }
  }

  function StudentUuid(s: Student): string {
    s.wixId
  }

  function PupilUuid(p: Pupil): string {
    p.wixId
  }

  /** The fetched students by `wix_id`. */
  function StudentsByUuid(students: seq<Student>): (m: map<string, Student>)
    ensures forall u :: u in m <==> exists s :: s in students && s.wixId == u
    ensures forall u :: u in m ==> m[u] in students && m[u].wixId == u
  {
    IndexBy(students, StudentUuid)
  }

  /** The fetched pupils by `wix_id`. */
  function PupilsByUuid(pupils: seq<Pupil>): (m: map<string, Pupil>)
    ensures forall u :: u in m <==> exists p :: p in pupils && p.wixId == u
    ensures forall u :: u in m ==> m[u] in pupils && m[u].wixId == u
  {
    IndexBy(pupils, PupilUuid)
  }

  /** A committed pairing: `{ student, pupil }`. */
  datatype Assignment = Assignment(student: Student, pupil: Pupil)

  datatype RunError =
    | UnknownPool(name: string)
    | MissingEntity(uuid: string)
    | CommitFailed(failed: Assignment)

  /** `result.matches.map(...)` with `assertExists`: one assignment per
      engine match, in engine order; the first uuid that is not a key throws,
      the helper's before the helpee's. */
  function Resolve(ms: seq<EngineMatch>, students: map<string, Student>, pupils: map<string, Pupil>)
    : (r: Result<seq<Assignment>, RunError>)
    ensures r.Ok? <==> forall i :: 0 <= i < |ms| ==> ms[i].helperUuid in students && ms[i].helpeeUuid in pupils
    ensures r.Ok? ==>
      |r.value| == |ms| &&
      forall i :: 0 <= i < |ms| ==> r.value[i] == Assignment(students[ms[i].helperUuid], pupils[ms[i].helpeeUuid])
    ensures r.Err? ==> r.error.MissingEntity?
  {
    if ms == [] then Ok([])
    else if ms[0].helperUuid !in students then Err(MissingEntity(ms[0].helperUuid))
    else if ms[0].helpeeUuid !in pupils then Err(MissingEntity(ms[0].helpeeUuid))
    else
      var rest :- Resolve(ms[1..], students, pupils);
      Ok([Assignment(students[ms[0].helperUuid], pupils[ms[0].helpeeUuid])] + rest)
  }

  /** The preparation and matching phases of a run. */
  datatype Planned = Planned(stats: Stats, matches: seq<Assignment>)

  /** What the engine returns for a pool's fetched students and pupils. */
  function EngineRun(env: Environment, store: Store, pool: Pool): EngineResult {
    var pupils := GetPupils(env, store, pool, None, None);
    var students := GetStudents(env, store, pool, None, None);
    env.engine(Helpers(env, store.matches, students), Helpees(env, store.matches, pupils), pool.settings)
  }

  /** Mapping the engine's result back to the fetched rows. It fails
      exactly when the engine names a uuid that is not among the fetched
      rows; otherwise there is one assignment per engine match, in engine
      order, pairing fetched rows that carry exactly the engine's uuids, and
      the engine's statistics are passed through. */
  function MapBack(students: seq<Student>, pupils: seq<Pupil>, result: EngineResult): (r: Result<Planned, RunError>)
    ensures r.Ok? <==>
      forall i :: 0 <= i < |result.matches| ==>
        (exists s :: s in students && s.wixId == result.matches[i].helperUuid) &&
        (exists p :: p in pupils && p.wixId == result.matches[i].helpeeUuid)
    ensures r.Ok? ==>
      && |r.value.matches| == |result.matches|
      && r.value.stats == result.stats
      && forall i :: 0 <= i < |result.matches| ==>
           && r.value.matches[i].student in students
           && r.value.matches[i].student.wixId == result.matches[i].helperUuid
           && r.value.matches[i].pupil in pupils
           && r.value.matches[i].pupil.wixId == result.matches[i].helpeeUuid
    ensures r.Err? ==> r.error.MissingEntity?
  {
    var ms :- Resolve(result.matches, StudentsByUuid(students), PupilsByUuid(pupils));
    Ok(Planned(result.stats, ms))
  }

  /** Fetch, convert, match and map back. */
  function Plan(env: Environment, store: Store, pool: Pool): Result<Planned, RunError> {
    var pupils := GetPupils(env, store, pool, None, None);
    var students := GetStudents(env, store, pool, None, None);
    MapBack(students, pupils, EngineRun(env, store, pool))
  }

  // ---------------------------------------------------------------------
  // Commit
  // ---------------------------------------------------------------------

  /** The calls the commit loop makes and the store after them. */
  datatype CommitOutcome = CommitOutcome(store: Store, calls: seq<Assignment>, failed: bool)

  /** `for (const match of matches) await pool.createMatch(match.pupil,
      match.student)`: one call per assignment, in order, stopping at the
      first call that throws. */
  function CommitAll(createMatch: CreateMatch, store: Store, ms: seq<Assignment>): (o: CommitOutcome)
    ensures |o.calls| <= |ms|
    ensures o.failed ==> |o.calls| >= 1
    decreases |ms|
  {
    if ms == [] then CommitOutcome(store, [], false)
    else
      var next := createMatch(store, ms[0].pupil, ms[0].student);
      if next.None? then CommitOutcome(store, [ms[0]], true)
      else
        var rest := CommitAll(createMatch, next.value, ms[1..]);
        CommitOutcome(rest.store, [ms[0]] + rest.calls, rest.failed)
  }

  /** The calls made are a prefix of the assignments, all of them unless a
      call threw. */
  lemma {:induction false} CommitCallsPrefix(createMatch: CreateMatch, store: Store, ms: seq<Assignment>)
    ensures var o := CommitAll(createMatch, store, ms);
      o.calls <= ms && (!o.failed ==> o.calls == ms)
    decreases |ms|
  {
    if ms != [] {
      var next := createMatch(store, ms[0].pupil, ms[0].student);
      if next.Some? {
        CommitCallsPrefix(createMatch, next.value, ms[1..]);
        assert ms == [ms[0]] + ms[1..];
      }
    }
  }

  /** A failed commit leaves exactly the effects of the calls before the one
      that threw, and that call did throw. */
  lemma {:induction false} CommitStopsAtFailure(createMatch: CreateMatch, store: Store, ms: seq<Assignment>)
    requires CommitAll(createMatch, store, ms).failed
    decreases |ms|
    ensures var o := CommitAll(createMatch, store, ms);
      var k := |o.calls| - 1;
      var before := CommitAll(createMatch, store, ms[..k]);
      && o.calls == ms[..k + 1]
      && !before.failed
      && o.store == before.store
      && createMatch(before.store, ms[k].pupil, ms[k].student).None?
  {
    var next := createMatch(store, ms[0].pupil, ms[0].student);
    if next.None? {
      assert ms[..0] == [];
    } else {
      var rest := CommitAll(createMatch, next.value, ms[1..]);
      CommitStopsAtFailure(createMatch, next.value, ms[1..]);
      var k := |rest.calls| - 1;
      assert ms[..k + 1][0] == ms[0] && ms[..k + 1][1..] == ms[1..][..k];
      assert ms[1..][k] == ms[k + 1];
      assert ms[..k + 2] == [ms[0]] + ms[1..][..k + 1];
    }
  }

  /** One step of `CommitAll` on a suffix of the assignments. */
  lemma CommitStep(createMatch: CreateMatch, store: Store, ms: seq<Assignment>, i: nat)
    requires i < |ms|
    ensures var next := createMatch(store, ms[i].pupil, ms[i].student);
      CommitAll(createMatch, store, ms[i..]) ==
        if next.None? then CommitOutcome(store, [ms[i]], true)
        else
          var rest := CommitAll(createMatch, next.value, ms[i + 1..]);
          CommitOutcome(rest.store, [ms[i]] + rest.calls, rest.failed)
  {
    assert ms[i..][0] == ms[i] && ms[i..][1..] == ms[i + 1..];
  }

  /** What the commit loop knows after one more call: the call that throws
      ends the commit, any other one moves on to the next assignment. */
  lemma CommitAdvance(createMatch: CreateMatch, store: Store, ms: seq<Assignment>, s: Store, calls: seq<Assignment>, i: nat)
    requires i < |ms|
    requires var rest := CommitAll(createMatch, s, ms[i..]);
      CommitAll(createMatch, store, ms) == CommitOutcome(rest.store, calls + rest.calls, rest.failed)
    ensures var next := createMatch(s, ms[i].pupil, ms[i].student);
      && (next.None? ==> CommitAll(createMatch, store, ms) == CommitOutcome(s, calls + [ms[i]], true))
      && (next.Some? ==>
            var rest := CommitAll(createMatch, next.value, ms[i + 1..]);
            CommitAll(createMatch, store, ms) == CommitOutcome(rest.store, (calls + [ms[i]]) + rest.calls, rest.failed))
  {
    CommitStep(createMatch, s, ms, i);
    var next := createMatch(s, ms[i].pupil, ms[i].student);
    if next.Some? {
      var rest := CommitAll(createMatch, next.value, ms[i + 1..]);
      assert calls + ([ms[i]] + rest.calls) == (calls + [ms[i]]) + rest.calls;
    }
  }

  /** The commit loop, against `CommitAll`. */
  method CommitMatches(createMatch: CreateMatch, store: Store, ms: seq<Assignment>) returns (o: CommitOutcome)
    ensures o == CommitAll(createMatch, store, ms)
  {
    var s := store;
    var calls: seq<Assignment> := [];
    var i := 0;
    while i < |ms|
      invariant 0 <= i <= |ms|
      invariant var rest := CommitAll(createMatch, s, ms[i..]);
        CommitAll(createMatch, store, ms) == CommitOutcome(rest.store, calls + rest.calls, rest.failed)
    {
      CommitAdvance(createMatch, store, ms, s, calls, i);
      var next := createMatch(s, ms[i].pupil, ms[i].student);
      if next.None? {
        return CommitOutcome(s, calls + [ms[i]], true);
      }
      calls := calls + [ms[i]];
      s := next.value;
      i := i + 1;
    }
    assert ms[i..] == [];
    o := CommitOutcome(s, calls, false);
  }

  // ---------------------------------------------------------------------
  // runMatching
  // ---------------------------------------------------------------------

  /** Milliseconds spent in each phase. */
  datatype Timing = Timing(preparation: int, matching: int, commit: int)

  datatype RunResult = RunResult(timing: Timing, stats: Stats, matches: seq<Assignment>)

  /** The info lines a run logs: started (with `apply`), found (pupil and
      student counts, preparation time), calculated (match count, matching
      time) and created (match count and a duration). */
  datatype LogLine =
    | Started(pool: string, apply: bool)
    | Found(pool: string, pupils: nat, students: nat, ms: int)
    | Calculated(pool: string, count: nat, ms: int)
    | Created(pool: string, count: nat, ms: int)

  /** The outcome of a run, the store after it, the `createMatch` calls it
      made (they stand even when the run throws) and the lines it logged. */
  datatype RunOutcome = RunOutcome(result: Result<RunResult, RunError>, store: Store, calls: seq<Assignment>, logged: seq<LogLine>)

  /** `runMatching(poolName, apply)`; `elapsed` holds what the clock would
      measure for each phase. */
  function Run(env: Environment, store: Store, pools: seq<Pool>, poolName: string, apply: bool, elapsed: Timing): RunOutcome {
    var k := FindPool(pools, poolName);
    if k.None? then RunOutcome(Err(UnknownPool(poolName)), store, [], [])
    else
      var pool := pools[k.value];
      var pupils := GetPupils(env, store, pool, None, None);
      var students := GetStudents(env, store, pool, None, None);
      var prepared := [Started(pool.name, apply)] + [Found(pool.name, |pupils|, |students|, elapsed.preparation)];
      var plan := Plan(env, store, pool);
      if plan.Err? then RunOutcome(Err(plan.error), store, [], prepared)
      else Commit(pool, store, plan.value, apply, elapsed,
        prepared + [Calculated(pool.name, |plan.value.matches|, elapsed.matching)])
  }

  /** The last phase of a run: commit the planned matches when `apply` is
      set, reporting the commit time only then, and log the matches created
      with the time the commit took. */
  function Commit(pool: Pool, store: Store, planned: Planned, apply: bool, elapsed: Timing, logged: seq<LogLine>): (o: RunOutcome)
    ensures o.result.Err? ==> o.result.error.CommitFailed? && apply
    ensures o.result.Ok? ==> o.result.value.stats == planned.stats && o.result.value.matches == planned.matches
    ensures o.result.Ok? ==> o.result.value.timing == if apply then elapsed else elapsed.(commit := 0)
    ensures !apply ==> o.calls == [] && o.store == store && o.result.Ok? && o.result.value.timing.commit == 0
    ensures apply ==> o.calls <= planned.matches && (o.result.Ok? <==> o.calls == planned.matches && !CommitAll(pool.createMatch, store, planned.matches).failed)
    ensures o.logged == if apply && o.result.Ok? then logged + [Created(pool.name, |planned.matches|, o.result.value.timing.commit)] else logged
  {
    CommitCallsPrefix(pool.createMatch, store, planned.matches);
    if !apply then
      RunOutcome(Ok(RunResult(elapsed.(commit := 0), planned.stats, planned.matches)), store, [], logged)
    else
      var c := CommitAll(pool.createMatch, store, planned.matches);
      if c.failed then RunOutcome(Err(CommitFailed(c.calls[|c.calls| - 1])), c.store, c.calls, logged)
      else RunOutcome(Ok(RunResult(elapsed, planned.stats, planned.matches)), c.store, c.calls,
        logged + [Created(pool.name, |planned.matches|, elapsed.commit)])
  }

  /** What a run promises: it fails with `UnknownPool` exactly when no pool
      has the name; without `apply` it makes no calls, leaves the store
      alone and reports no commit time; with `apply` a successful run has
      committed every planned match; and a successful run reports the plan of
      the first pool with that name. */
  lemma RunOutcomes(env: Environment, store: Store, pools: seq<Pool>, poolName: string, apply: bool, elapsed: Timing)
    ensures var o := Run(env, store, pools, poolName, apply, elapsed);
      && ((o.result.Err? && o.result.error.UnknownPool?) <==> forall i :: 0 <= i < |pools| ==> pools[i].name != poolName)
      && (!apply ==> o.calls == [] && o.store == store)
      && (!apply && o.result.Ok? ==> o.result.value.timing.commit == 0)
      && (apply && o.result.Ok? ==> o.calls == o.result.value.matches)
      && (o.result.Ok? ==>
            var k := FindPool(pools, poolName);
            k.Some? && Plan(env, store, pools[k.value]) == Ok(Planned(o.result.value.stats, o.result.value.matches)))
  {
    var k := FindPool(pools, poolName);
    if k.Some? {
      var plan := Plan(env, store, pools[k.value]);
      assert plan.Err? ==> plan.error.MissingEntity?;
    }
  }

  /** `runMatching`: look the pool up, prepare, match, and commit only when
      `apply` is set, logging each phase. */
  method RunMatching(env: Environment, store: Store, pools: seq<Pool>, poolName: string, apply: bool, elapsed: Timing)
    returns (o: RunOutcome)
    ensures o == Run(env, store, pools, poolName, apply, elapsed)
  {
    var k := FindPool(pools, poolName);
    if k.None? {
      return RunOutcome(Err(UnknownPool(poolName)), store, [], []);
    }
    var pool := pools[k.value];
    var logged := [Started(pool.name, apply)];
    var timing := Timing(0, 0, 0);

    var pupils := GetPupils(env, store, pool, None, None);
    var students := GetStudents(env, store, pool, None, None);
    timing := timing.(preparation := elapsed.preparation);
    logged := logged + [Found(pool.name, |pupils|, |students|, timing.preparation)];
    var plan := Plan(env, store, pool);
    if plan.Err? {
      return RunOutcome(Err(plan.error), store, [], logged);
    }
    var planned := plan.value;
    timing := timing.(matching := elapsed.matching);
    logged := logged + [Calculated(pool.name, |planned.matches|, timing.matching)];
    o := CommitPhase(pool, store, planned, apply, timing, elapsed.commit, logged);
  }

  /** The commit phase of `runMatching`, given the timing so far and the
      time the commit takes. */
  method CommitPhase(pool: Pool, store: Store, planned: Planned, apply: bool, timing: Timing, commitTime: int, logged: seq<LogLine>)
    returns (o: RunOutcome)
    ensures o == Commit(pool, store, planned, apply, timing.(commit := commitTime), logged)
  {
    var after := store;
    var calls: seq<Assignment> := [];
    var lines := logged;
    var reported := timing.(commit := 0);
    if apply {
      var c := CommitMatches(pool.createMatch, store, planned.matches);
      if c.failed {
        return RunOutcome(Err(CommitFailed(c.calls[|c.calls| - 1])), c.store, c.calls, logged);
      }
      after, calls := c.store, c.calls;
      reported := reported.(commit := commitTime);
      lines := lines + [Created(pool.name, |planned.matches|, reported.commit)];
    }
    o := RunOutcome(Ok(RunResult(reported, planned.stats, planned.matches)), after, calls, lines);
  }

  /** A run without `apply` changes nothing, so running it again on the same
      store gives the same result. */
  lemma DryRunRepeatable(env: Environment, store: Store, pools: seq<Pool>, poolName: string, elapsed: Timing)
    ensures var first := Run(env, store, pools, poolName, false, elapsed);
      first.store == store && first.calls == [] &&
      Run(env, first.store, pools, poolName, false, elapsed) == first
  {
  }

  /** The commit phase as written: the line logged after the commit reports
      the matching phase's time. */
  function CommitAsWritten(pool: Pool, store: Store, planned: Planned, apply: bool, elapsed: Timing, logged: seq<LogLine>): (o: RunOutcome)
    ensures o.result == Commit(pool, store, planned, apply, elapsed, logged).result
    ensures |o.logged| >= |logged| && o.logged[..|logged|] == logged
  {
    var o := Commit(pool, store, planned, apply, elapsed, logged);
    if apply && o.result.Ok? then o.(logged := logged + [Created(pool.name, |planned.matches|, elapsed.matching)])
    else o
  }

  /** As written, a committed run logs the matching time as the time it took
      to create the matches: the line repeats the duration of the line
      before it, and differs from the commit time the run returns whenever
      matching and committing took different times. */
  lemma CommitLogMisreports(pool: Pool, store: Store, planned: Planned, elapsed: Timing)
    requires elapsed.matching != elapsed.commit
    ensures var before := [Calculated(pool.name, |planned.matches|, elapsed.matching)];
      var o := CommitAsWritten(pool, store, planned, true, elapsed, before);
      o.result.Ok? ==>
        && |o.logged| == 2 && o.logged[1].Created?
        && o.logged[1].ms == o.logged[0].ms
        && o.logged[1].ms != o.result.value.timing.commit
  {
  }

  /** A committed run logs four lines: started, found, calculated with the
      matching time, and created with the commit time it returns. A dry run
      logs the first three; a run that fails before committing logs no
      created line. */
  lemma CommitLogReportsCommitTime(env: Environment, store: Store, pools: seq<Pool>, poolName: string, apply: bool, elapsed: Timing)
    ensures var o := Run(env, store, pools, poolName, apply, elapsed);
      && (o.result.Ok? ==>
            var n := |o.result.value.matches|;
            && |o.logged| == (if apply then 4 else 3)
            && o.logged[0] == Started(poolName, apply)
            && FindPool(pools, poolName).Some?
            && (var pool := pools[FindPool(pools, poolName).value];
                o.logged[1] == Found(poolName, |GetPupils(env, store, pool, None, None)|,
                                     |GetStudents(env, store, pool, None, None)|, elapsed.preparation))
            && o.logged[2] == Calculated(poolName, n, o.result.value.timing.matching)
            && (apply ==> o.logged[3] == Created(poolName, n, o.result.value.timing.commit)
                          && o.result.value.timing.commit == elapsed.commit))
  {
    var k := FindPool(pools, poolName);
    if k.Some? {
      var pool := pools[k.value];
      var pupils := GetPupils(env, store, pool, None, None);
      var students := GetStudents(env, store, pool, None, None);
      var prepared := [Started(pool.name, apply)] + [Found(pool.name, |pupils|, |students|, elapsed.preparation)];
      var plan := Plan(env, store, pool);
      if plan.Ok? {
        var logged := prepared + [Calculated(pool.name, |plan.value.matches|, elapsed.matching)];
        assert |logged| == 3 && logged[0] == Started(poolName, apply) &&
          logged[1] == Found(poolName, |pupils|, |students|, elapsed.preparation) &&
          logged[2] == Calculated(poolName, |plan.value.matches|, elapsed.matching);
        var o := Commit(pool, store, plan.value, apply, elapsed, logged);
        assert Run(env, store, pools, poolName, apply, elapsed) == o;
      }
    }
  }

  /** No line of the log reports created matches. */
  predicate NoCreated(logged: seq<LogLine>) {
    forall j :: 0 <= j < |logged| ==> !logged[j].Created?
  }

  lemma PreparedLogsNoCreated(pool: string, apply: bool, pupils: nat, students: nat, preparation: int, count: nat, matching: int)
    ensures var prepared := [Started(pool, apply)] + [Found(pool, pupils, students, preparation)];
      NoCreated(prepared) && NoCreated(prepared + [Calculated(pool, count, matching)])
  {
  }

  /** A run that throws logs at most the started, found and calculated
      lines: a failed commit is never reported as created matches. */
  lemma FailedRunLogsNoCreated(env: Environment, store: Store, pools: seq<Pool>, poolName: string, apply: bool, elapsed: Timing)
    ensures var o := Run(env, store, pools, poolName, apply, elapsed);
      o.result.Err? ==> |o.logged| <= 3 && NoCreated(o.logged)
  {
    var k := FindPool(pools, poolName);
    if k.Some? {
      var pool := pools[k.value];
      var pupils := GetPupils(env, store, pool, None, None);
      var students := GetStudents(env, store, pool, None, None);
      var prepared := [Started(pool.name, apply)] + [Found(pool.name, |pupils|, |students|, elapsed.preparation)];
      var plan := Plan(env, store, pool);
      PreparedLogsNoCreated(pool.name, apply, |pupils|, |students|, elapsed.preparation, if plan.Ok? then |plan.value.matches| else 0, elapsed.matching);
      if plan.Ok? {
        var logged := prepared + [Calculated(pool.name, |plan.value.matches|, elapsed.matching)];
        assert Run(env, store, pools, poolName, apply, elapsed) == Commit(pool, store, plan.value, apply, elapsed, logged);
      }
    }
  }

  // ---------------------------------------------------------------------
  // runAutomaticMatching
  // ---------------------------------------------------------------------

  /** The counts the gate queries and the runs it starts. */
  datatype GateEvent = CountedPupils(pool: string, count: nat) | CountedStudents(pool: string, count: nat) | Ran(pool: string)

  /** What the gate does with one pool: the counts it queries and whether it
      runs the pool. */
  datatype Decision = Decision(events: seq<GateEvent>, run: bool)

  /** The guards of one iteration: skip pools without `automatic`, then
      pools with too few pupils (without counting students), then pools with
      too few students. */
  function Decide(env: Environment, store: Store, pool: Pool): (d: Decision)
    ensures d.run <==>
      pool.automatic.Some? &&
      GetPupilCount(env, store, pool) >= pool.automatic.value.minPupils &&
      GetStudentCount(env, store, pool) >= pool.automatic.value.minStudents
    ensures pool.automatic.None? ==> d.events == []
    ensures forall e :: e in d.events && e.CountedStudents? ==>
      pool.automatic.Some? && GetPupilCount(env, store, pool) >= pool.automatic.value.minPupils
    ensures forall e :: e in d.events ==> !e.Ran? && e.pool == pool.name
  {
    if pool.automatic.None? then Decision([], false)
    else
      var pupilCount := GetPupilCount(env, store, pool);
      if pupilCount < pool.automatic.value.minPupils then Decision([CountedPupils(pool.name, pupilCount)], false)
      else
        var studentCount := GetStudentCount(env, store, pool);
        var events := [CountedPupils(pool.name, pupilCount), CountedStudents(pool.name, studentCount)];
        if studentCount < pool.automatic.value.minStudents then Decision(events, false)
        else Decision(events, true)
  }

  datatype GateOutcome = GateOutcome(events: seq<GateEvent>, store: Store, error: Option<RunError>)

  function After(events: seq<GateEvent>, o: GateOutcome): GateOutcome {
    o.(events := events + o.events)
  }

  /** The loop of `runAutomaticMatching` from pool `i` on: pools in registry
      order, each run (by name, with `apply`) when its decision says so; an
      error ends the loop. */
  function Gate(env: Environment, pools: seq<Pool>, i: nat, store: Store, elapsed: Timing): GateOutcome
    decreases |pools| - i
  {
    if i >= |pools| then GateOutcome([], store, None)
    else
      var d := Decide(env, store, pools[i]);
      if !d.run then After(d.events, Gate(env, pools, i + 1, store, elapsed))
      else
        var o := Run(env, store, pools, pools[i].name, true, elapsed);
        if o.result.Err? then GateOutcome(d.events + [Ran(pools[i].name)], o.store, Some(o.result.error))
        else After(d.events + [Ran(pools[i].name)], Gate(env, pools, i + 1, o.store, elapsed))
  }

  /** The store the gate holds when it reaches pool `j`, starting at pool
      `i`; `None` when a run before `j` threw and ended the loop. */
  function GateStoreAt(env: Environment, pools: seq<Pool>, i: nat, store: Store, elapsed: Timing, j: nat): (r: Option<Store>)
    requires i <= j <= |pools|
    ensures i == j ==> r == Some(store)
    decreases j - i
  {
    if i == j then Some(store)
    else
      var d := Decide(env, store, pools[i]);
      if !d.run then GateStoreAt(env, pools, i + 1, store, elapsed, j)
      else
        var o := Run(env, store, pools, pools[i].name, true, elapsed);
        if o.result.Err? then None
        else GateStoreAt(env, pools, i + 1, o.store, elapsed, j)
  }

  /** The gate, started at pool `i`, reaches pool `j` and finds it
      automatic and over both thresholds on the store it holds there. */
  predicate RunsAt(env: Environment, pools: seq<Pool>, i: nat, store: Store, elapsed: Timing, j: nat)
    requires i <= j < |pools|
  {
    var at := GateStoreAt(env, pools, i, store, elapsed, j);
    at.Some? && pools[j].automatic.Some? && Decide(env, at.value, pools[j]).run
  }

  /** Past pool `i`, what the gate reaches from `i` is what it reaches from
      `i + 1` on the store pool `i` left behind. */
  lemma RunsAtShift(env: Environment, pools: seq<Pool>, i: nat, store: Store, elapsed: Timing, next: Store, j: nat)
    requires i < j < |pools|
    requires var d := Decide(env, store, pools[i]);
      var o := Run(env, store, pools, pools[i].name, true, elapsed);
      next == (if d.run then o.store else store) && (d.run ==> o.result.Ok?)
    ensures RunsAt(env, pools, i, store, elapsed, j) == RunsAt(env, pools, i + 1, next, elapsed, j)
  {
    assert GateStoreAt(env, pools, i, store, elapsed, j) == GateStoreAt(env, pools, i + 1, next, elapsed, j);
  }

  /** Every run the gate starts is for a pool it reached, that has
      `automatic` set and that met both thresholds on the store the gate held
      when it reached that pool. */
  lemma {:induction false} GateRunsOnlyAutomatic(env: Environment, pools: seq<Pool>, i: nat, store: Store, elapsed: Timing)
    requires i <= |pools|
    ensures forall e :: e in Gate(env, pools, i, store, elapsed).events && e.Ran? ==>
      exists j :: i <= j < |pools| && pools[j].name == e.pool && RunsAt(env, pools, i, store, elapsed, j)
    decreases |pools| - i
  {
    if i < |pools| {
      var d := Decide(env, store, pools[i]);
      var own := if d.run then d.events + [Ran(pools[i].name)] else d.events;
      assert forall e :: e in own && e.Ran? ==> e == Ran(pools[i].name) && d.run;
      var o := Run(env, store, pools, pools[i].name, true, elapsed);
      if d.run && o.result.Err? {
        assert RunsAt(env, pools, i, store, elapsed, i);
      } else {
        var next := if d.run then o.store else store;
        GateRunsOnlyAutomatic(env, pools, i + 1, next, elapsed);
        var rest := Gate(env, pools, i + 1, next, elapsed);
        assert Gate(env, pools, i, store, elapsed).events == own + rest.events;
        forall e | e in Gate(env, pools, i, store, elapsed).events && e.Ran?
          ensures exists j :: i <= j < |pools| && pools[j].name == e.pool && RunsAt(env, pools, i, store, elapsed, j)
        {
          if e in rest.events {
            var j :| i + 1 <= j < |pools| && pools[j].name == e.pool && RunsAt(env, pools, i + 1, next, elapsed, j);
            RunsAtShift(env, pools, i, store, elapsed, next, j);
          } else {
            assert RunsAt(env, pools, i, store, elapsed, i);
          }
        }
      }
    }
  }

  /** A registry without automatic pools is a no-op for the gate. */
  lemma {:induction false} GateIgnoresManualPools(env: Environment, pools: seq<Pool>, i: nat, store: Store, elapsed: Timing)
    requires forall j :: i <= j < |pools| ==> pools[j].automatic.None?
    ensures Gate(env, pools, i, store, elapsed) == GateOutcome([], store, None)
    decreases |pools| - i
  {
    if i < |pools| {
      GateIgnoresManualPools(env, pools, i + 1, store, elapsed);
    }
  }

  /** A pool the gate does not run leaves the store alone: the gate goes on
      with the next pool after the counts it queried. */
  lemma GateSkip(env: Environment, pools: seq<Pool>, i: nat, store: Store, elapsed: Timing)
    requires i < |pools| && !Decide(env, store, pools[i]).run
    ensures Gate(env, pools, i, store, elapsed) ==
      After(Decide(env, store, pools[i]).events, Gate(env, pools, i + 1, store, elapsed))
  {
  }

  /** A pool the gate runs is run by name with `apply`; an error ends the
      loop with the store the run left behind. */
  lemma GateRun(env: Environment, pools: seq<Pool>, i: nat, store: Store, elapsed: Timing, o: RunOutcome)
    requires i < |pools| && Decide(env, store, pools[i]).run
    requires o == Run(env, store, pools, pools[i].name, true, elapsed)
    ensures var events := Decide(env, store, pools[i]).events + [Ran(pools[i].name)];
      Gate(env, pools, i, store, elapsed) ==
        if o.result.Err? then GateOutcome(events, o.store, Some(o.result.error))
        else After(events, Gate(env, pools, i + 1, o.store, elapsed))
  {
  }

  /** A pool below one of its thresholds, wherever it stands in the
      registry, is counted but not run: too few pupils is the only count
      queried, otherwise both counts are, and the gate goes on with the next
      pool on the same store. */
  lemma GateSkipsBelowThreshold(env: Environment, pools: seq<Pool>, i: nat, store: Store, elapsed: Timing)
    requires i < |pools| && pools[i].automatic.Some?
    requires GetPupilCount(env, store, pools[i]) < pools[i].automatic.value.minPupils ||
             GetStudentCount(env, store, pools[i]) < pools[i].automatic.value.minStudents
    ensures var pool := pools[i];
      var pupils := GetPupilCount(env, store, pool);
      var counts := if pupils < pool.automatic.value.minPupils then [CountedPupils(pool.name, pupils)]
        else [CountedPupils(pool.name, pupils), CountedStudents(pool.name, GetStudentCount(env, store, pool))];
      Gate(env, pools, i, store, elapsed) == After(counts, Gate(env, pools, i + 1, store, elapsed))
  {
    GateSkip(env, pools, i, store, elapsed);
  }

  lemma AfterAfter(a: seq<GateEvent>, b: seq<GateEvent>, o: GateOutcome)
    ensures After(a, After(b, o)) == After(a + b, o)
  {
    assert a + (b + o.events) == (a + b) + o.events;
  }

  /** One iteration of `runAutomaticMatching`: the guards (skip pools
      without `automatic`, then pools with too few pupils without counting
      students, then pools with too few students) and the run. */
  method GatePool(env: Environment, store: Store, pools: seq<Pool>, i: nat, elapsed: Timing)
    returns (events: seq<GateEvent>, after: Store, error: Option<RunError>)
    requires i < |pools|
    ensures Gate(env, pools, i, store, elapsed) ==
      if error.Some? then GateOutcome(events, after, error)
      else After(events, Gate(env, pools, i + 1, after, elapsed))
  {
    var pool := pools[i];
    var run := false;
    if pool.automatic.None? {
      events := [];
    } else {
      var pupilCount := GetPupilCount(env, store, pool);
      if pupilCount < pool.automatic.value.minPupils {
        events := [CountedPupils(pool.name, pupilCount)];
      } else {
        var studentCount := GetStudentCount(env, store, pool);
        events := [CountedPupils(pool.name, pupilCount), CountedStudents(pool.name, studentCount)];
        run := studentCount >= pool.automatic.value.minStudents;
      }
    }
    assert Decide(env, store, pool) == Decision(events, run);
    if !run {
      GateSkip(env, pools, i, store, elapsed);
      return events, store, None;
    }
    events := events + [Ran(pool.name)];
    var o := RunMatching(env, store, pools, pool.name, true, elapsed);
    GateRun(env, pools, i, store, elapsed, o);
    after := o.store;
    error := if o.result.Err? then Some(o.result.error) else None;
  }

  /** `runAutomaticMatching`, against `Gate`. */
  method RunAutomaticMatching(env: Environment, store: Store, pools: seq<Pool>, elapsed: Timing) returns (o: GateOutcome)
    ensures o == Gate(env, pools, 0, store, elapsed)
  {
    var s := store;
    var events: seq<GateEvent> := [];
    var i := 0;
    while i < |pools|
      invariant 0 <= i <= |pools|
      invariant Gate(env, pools, 0, store, elapsed) == After(events, Gate(env, pools, i, s, elapsed))
    {
      var poolEvents, after, error := GatePool(env, s, pools, i, elapsed);
      if error.Some? {
        return GateOutcome(events + poolEvents, after, error);
      }
      AfterAfter(events, poolEvents, Gate(env, pools, i + 1, after, elapsed));
      events := events + poolEvents;
      s := after;
      i := i + 1;
    }
    o := GateOutcome(events, s, None);
    assert events + [] == events;
  }
}

=== FILE: participants.dfy ===
/** Participants and organizers of a subcourse's appointments
    (common/appointment/participants.ts). The lecture table is a sequence of
    lecture records held by an `Appointments` object; the add and remove
    operations update its records in place, lecture by lecture. */
module Participants {
  import opened Wrappers
  import UserIds

  /** A lecture (appointment) row; `start` is a timestamp. */
  datatype Lecture = Lecture(
    id: int, subcourseId: int, start: int, participantIds: seq<string>, organizerIds: seq<string>)

  /** The two lists a user id can be on. */
  datatype Role = Participant | Organizer

  /** The error an add throws at a lecture where the user holds the other
      role. */
  datatype Conflict =
    | AlreadyOrganizer(lectureId: int, userId: string)
    | AlreadyParticipant(lectureId: int, userId: string)

  function Listed(l: Lecture, role: Role): seq<string> {
    match role
    case Participant => l.participantIds
    case Organizer => l.organizerIds
  }

  /** The user holds both roles in the lecture. */
  predicate InBoth(l: Lecture, userId: string) {
    userId in l.participantIds && userId in l.organizerIds
  }

  /** No lecture lists anyone as both participant and organizer. */
  predicate RolesDisjoint(ls: seq<Lecture>) {
    forall j, u :: 0 <= j < |ls| && u in ls[j].participantIds ==> u !in ls[j].organizerIds
  }

  // ---------------------------------------------------------------------
  // Adding
  // ---------------------------------------------------------------------

  /** The add throws at this lecture: as participant, when the user is not a
      participant yet but an organizer; as organizer, whenever the user is a
      participant (checked before the organizer list). */
  predicate Conflicts(l: Lecture, subcourseId: int, userId: string, role: Role) {
    l.subcourseId == subcourseId &&
    match role
    case Participant => userId !in l.participantIds && userId in l.organizerIds
    case Organizer => userId in l.participantIds
  }

  function ConflictAt(l: Lecture, userId: string, role: Role): Conflict {
    match role
    case Participant => AlreadyOrganizer(l.id, userId)
    case Organizer => AlreadyParticipant(l.id, userId)
  }

  /** What the add does to one lecture it gets past: lectures of other
      subcourses and lectures already listing the user are untouched;
      otherwise the user is appended to the role's list. */
  function Added(l: Lecture, subcourseId: int, userId: string, role: Role): (r: Lecture)
    ensures r.id == l.id && r.subcourseId == l.subcourseId && r.start == l.start
    ensures l.subcourseId == subcourseId ==> userId in Listed(r, role)
    ensures Listed(r, role) == Listed(l, role) || Listed(r, role) == Listed(l, role) + [userId]
    ensures Listed(r, role) != Listed(l, role) ==> l.subcourseId == subcourseId && userId !in Listed(l, role)
    ensures role == Participant ==> r.organizerIds == l.organizerIds
    ensures role == Organizer ==> r.participantIds == l.participantIds
  {
    if l.subcourseId != subcourseId || userId in Listed(l, role) then l
    else
      match role
      case Participant => l.(participantIds := l.participantIds + [userId])
      case Organizer => l.(organizerIds := l.organizerIds + [userId])
  }

  /** The position of the first lecture the add throws at, or the table
      length. */
  function FirstConflict(ls: seq<Lecture>, subcourseId: int, userId: string, role: Role): (k: nat)
    ensures k <= |ls|
    ensures forall j :: 0 <= j < k ==> !Conflicts(ls[j], subcourseId, userId, role)
    ensures k < |ls| ==> Conflicts(ls[k], subcourseId, userId, role)
  {
    if ls == [] then 0
    else if Conflicts(ls[0], subcourseId, userId, role) then 0
    else 1 + FirstConflict(ls[1..], subcourseId, userId, role)
  }

  /** The table after an add: every lecture before the first conflict has
      had the user added, every later lecture is untouched. */
  function AddResult(ls: seq<Lecture>, subcourseId: int, userId: string, role: Role): (r: seq<Lecture>)
    ensures |r| == |ls|
  {
    var k := FirstConflict(ls, subcourseId, userId, role);
    seq(|ls|, j requires 0 <= j < |ls| => if j < k then Added(ls[j], subcourseId, userId, role) else ls[j])
  }

  /** What the add throws, if anything. */
  function AddError(ls: seq<Lecture>, subcourseId: int, userId: string, role: Role): Option<Conflict> {
    var k := FirstConflict(ls, subcourseId, userId, role);
    if k < |ls| then Some(ConflictAt(ls[k], userId, role)) else None
  }

  /** An add that does not throw lists the user in the role in every lecture
      of the subcourse, and touches no lecture of another subcourse. */
  lemma AddReachesEverySubcourseLecture(ls: seq<Lecture>, subcourseId: int, userId: string, role: Role)
    requires AddError(ls, subcourseId, userId, role).None?
    ensures var r := AddResult(ls, subcourseId, userId, role);
      forall j :: 0 <= j < |ls| ==>
        (ls[j].subcourseId == subcourseId ==> userId in Listed(r[j], role)) &&
        (ls[j].subcourseId != subcourseId ==> r[j] == ls[j])
  {
  }

  /** An add that throws does so at the first lecture of the subcourse where
      the user holds the other role (as participant: without already being a
      participant), and that lecture and every later one is untouched. */
  lemma AddStopsAtConflict(ls: seq<Lecture>, subcourseId: int, userId: string, role: Role)
    requires AddError(ls, subcourseId, userId, role).Some?
    ensures var k := FirstConflict(ls, subcourseId, userId, role);
      var r := AddResult(ls, subcourseId, userId, role);
      && k < |ls|
      && ls[k].subcourseId == subcourseId
      && (role == Participant ==> userId in ls[k].organizerIds && userId !in ls[k].participantIds)
      && (role == Organizer ==> userId in ls[k].participantIds)
      && AddError(ls, subcourseId, userId, role) == Some(ConflictAt(ls[k], userId, role))
      && r[k..] == ls[k..]
      && forall j :: 0 <= j < k ==> r[j] == Added(ls[j], subcourseId, userId, role)
  {
    var k := FirstConflict(ls, subcourseId, userId, role);
    var r := AddResult(ls, subcourseId, userId, role);
    assert forall j :: k <= j < |ls| ==> r[j] == ls[j];
    assert r[k..] == ls[k..];
  }

  /** Neither add makes a user both participant and organizer of a lecture
      that was not so already. */
  lemma {:induction false} AddNeverMakesBothRoles(ls: seq<Lecture>, subcourseId: int, userId: string, role: Role)
    ensures var r := AddResult(ls, subcourseId, userId, role);
      forall j, u :: 0 <= j < |ls| && InBoth(r[j], u) ==> InBoth(ls[j], u)
  {
    var r := AddResult(ls, subcourseId, userId, role);
    var k := FirstConflict(ls, subcourseId, userId, role);
    forall j, u | 0 <= j < |ls| && InBoth(r[j], u)
      ensures InBoth(ls[j], u)
    {
      if j < k {
        assert !Conflicts(ls[j], subcourseId, userId, role);
      }
    }
  }

  /** Hence both adds keep a table free of double roles. */
  lemma AddKeepsRolesDisjoint(ls: seq<Lecture>, subcourseId: int, userId: string, role: Role)
    requires RolesDisjoint(ls)
    ensures RolesDisjoint(AddResult(ls, subcourseId, userId, role))
  {
    AddNeverMakesBothRoles(ls, subcourseId, userId, role);
    var r := AddResult(ls, subcourseId, userId, role);
    forall j, u | 0 <= j < |r| && u in r[j].participantIds
      ensures u !in r[j].organizerIds
    {
      if u in r[j].organizerIds {
        assert InBoth(r[j], u);
      }
    }
  }

  /** Adding again after an add that did not throw changes nothing and does
      not throw either. */
  lemma {:induction false} AddIdempotent(ls: seq<Lecture>, subcourseId: int, userId: string, role: Role)
    requires AddError(ls, subcourseId, userId, role).None?
    ensures var r := AddResult(ls, subcourseId, userId, role);
      AddError(r, subcourseId, userId, role).None? && AddResult(r, subcourseId, userId, role) == r
  {
    var r := AddResult(ls, subcourseId, userId, role);
    forall j | 0 <= j < |r|
      ensures !Conflicts(r[j], subcourseId, userId, role)
    {
      assert !Conflicts(ls[j], subcourseId, userId, role);
      if role == Organizer {
        assert r[j].participantIds == ls[j].participantIds;
      }
    }
    assert FirstConflict(r, subcourseId, userId, role) == |r|;
    assert AddResult(r, subcourseId, userId, role) == r;
  }

  // ---------------------------------------------------------------------
  // Removing
  // ---------------------------------------------------------------------

  /** `ids.filter(id => id !== x)`. */
  function Without(ids: seq<string>, x: string): (r: seq<string>)
    ensures x !in r
    ensures forall y :: y in r <==> y in ids && y != x
    ensures multiset(r) == multiset(ids)[x := 0]
    ensures |r| <= |ids|
  {
    if ids == [] then []
    else
      assert ids == [ids[0]] + ids[1..];
      (if ids[0] == x then [] else [ids[0]]) + Without(ids[1..], x)
  }

  /** The filter keeps the order of what it keeps: filtering a
      concatenation filters each part. */
  lemma {:induction false} WithoutConcat(a: seq<string>, b: seq<string>, x: string)
    ensures Without(a + b, x) == Without(a, x) + Without(b, x)
  {
    if a == [] {
      assert a + b == b;
    } else {
      var head := if a[0] == x then [] else [a[0]];
      WithoutConcat(a[1..], b, x);
      WithoutHead(a, b, x);
      Associative(head, Without(a[1..], x), Without(b, x));
    }
  }

  /** The first id of a non-empty list is filtered on its own. */
  lemma WithoutHead(a: seq<string>, b: seq<string>, x: string)
    requires a != []
    ensures Without(a + b, x) == (if a[0] == x then [] else [a[0]]) + Without(a[1..] + b, x)
  {
    assert (a + b)[1..] == a[1..] + b;
  }

  lemma Associative(h: seq<string>, p: seq<string>, q: seq<string>)
    ensures h + (p + q) == (h + p) + q
  {
  }

  /** On a single id the filter drops `x` and keeps anything else. */
  lemma WithoutOne(y: string, x: string)
    ensures Without([y], x) == if y == x then [] else [y]
  {
    assert [y][1..] == [];
  }

  /** Removing what was just appended gives the same as removing it from
      the list before the append. */
  lemma {:induction false} WithoutAppended(ids: seq<string>, x: string)
    ensures Without(ids + [x], x) == Without(ids, x)
  {
    if ids != [] {
      assert (ids + [x])[1..] == ids[1..] + [x];
      WithoutAppended(ids[1..], x);
    } else {
      assert Without([x], x) == Without([], x);
    }
  }

  /** Removing an absent id keeps the list, order included. */
  lemma {:induction false} WithoutAbsent(ids: seq<string>, x: string)
    requires x !in ids
    ensures Without(ids, x) == ids
  {
    if ids != [] {
      WithoutAbsent(ids[1..], x);
      assert ids == [ids[0]] + ids[1..];
    }
  }

  /** `removeGroupAppointmentsParticipant` on one lecture: lectures of the
      subcourse that list the user and have not started before `now` lose
      every occurrence of the user. */
  function ParticipantRemoved(l: Lecture, subcourseId: int, userId: string, now: int): (r: Lecture)
    ensures r.id == l.id && r.subcourseId == l.subcourseId && r.start == l.start && r.organizerIds == l.organizerIds
    ensures l.subcourseId == subcourseId && l.start >= now ==> userId !in r.participantIds
    ensures l.subcourseId == subcourseId && l.start >= now ==> r.participantIds == Without(l.participantIds, userId)
    ensures l.subcourseId != subcourseId || l.start < now ==> r == l
    ensures forall u :: u != userId ==> (u in r.participantIds <==> u in l.participantIds)
  {
    if l.subcourseId == subcourseId && l.start >= now then
      if userId in l.participantIds then l.(participantIds := Without(l.participantIds, userId))
      else WithoutAbsent(l.participantIds, userId); l
    else l
  }

  /** `removeGroupAppointmentsOrganizer` on one lecture: every lecture of the
      subcourse loses every occurrence of the organizer, whatever its start. */
  function OrganizerRemoved(l: Lecture, subcourseId: int, organizerId: string): (r: Lecture)
    ensures r.id == l.id && r.subcourseId == l.subcourseId && r.start == l.start && r.participantIds == l.participantIds
    ensures l.subcourseId == subcourseId ==> organizerId !in r.organizerIds && r.organizerIds == Without(l.organizerIds, organizerId)
    ensures l.subcourseId != subcourseId ==> r == l
    ensures forall u :: u != organizerId ==> (u in r.organizerIds <==> u in l.organizerIds)
  {
    if l.subcourseId == subcourseId then l.(organizerIds := Without(l.organizerIds, organizerId)) else l
  }

  /** Removing a participant right after adding them restores every lecture
      of the subcourse that has not started, provided the add did not throw
      and the user was no participant anywhere before. */
  lemma RemoveUndoesAdd(ls: seq<Lecture>, subcourseId: int, userId: string, now: int)
    requires AddError(ls, subcourseId, userId, Participant).None?
    requires forall j :: 0 <= j < |ls| ==> userId !in ls[j].participantIds
    ensures var r := AddResult(ls, subcourseId, userId, Participant);
      forall j :: 0 <= j < |ls| && (ls[j].subcourseId != subcourseId || ls[j].start >= now) ==>
        ParticipantRemoved(r[j], subcourseId, userId, now) == ls[j]
  {
    var r := AddResult(ls, subcourseId, userId, Participant);
    forall j | 0 <= j < |ls| && ls[j].subcourseId == subcourseId && ls[j].start >= now
      ensures ParticipantRemoved(r[j], subcourseId, userId, now) == ls[j]
    {
      assert r[j] == ls[j].(participantIds := ls[j].participantIds + [userId]);
      WithoutAppended(ls[j].participantIds, userId);
      WithoutAbsent(ls[j].participantIds, userId);
    }
  }

  /** Removing an organizer after adding one who was on no list of the
      subcourse restores the table. */
  lemma RemoveUndoesAddOrganizer(ls: seq<Lecture>, subcourseId: int, organizerId: string)
    requires AddError(ls, subcourseId, organizerId, Organizer).None?
    requires forall j :: 0 <= j < |ls| && ls[j].subcourseId == subcourseId ==> organizerId !in ls[j].organizerIds
    ensures var r := AddResult(ls, subcourseId, organizerId, Organizer);
      forall j :: 0 <= j < |ls| ==> OrganizerRemoved(r[j], subcourseId, organizerId) == ls[j]
  {
    var r := AddResult(ls, subcourseId, organizerId, Organizer);
    forall j | 0 <= j < |ls| && ls[j].subcourseId == subcourseId
      ensures OrganizerRemoved(r[j], subcourseId, organizerId) == ls[j]
    {
      assert r[j] == ls[j].(organizerIds := ls[j].organizerIds + [organizerId]);
      WithoutAppended(ls[j].organizerIds, organizerId);
      WithoutAbsent(ls[j].organizerIds, organizerId);
    }
  }

  // ---------------------------------------------------------------------
  // The lecture table
  // ---------------------------------------------------------------------

  class Appointments {
    var lectures: seq<Lecture>

    constructor(lectures: seq<Lecture>)
      ensures this.lectures == lectures
    {
      this.lectures := lectures;
    }

    /** `isAppointmentParticipant`: some lecture with the appointment's id
        lists the user's id as participant. */
    method IsAppointmentParticipant(lecture: Lecture, user: UserIds.User) returns (r: bool)
      ensures r <==> exists j :: 0 <= j < |lectures| && lectures[j].id == lecture.id && user.userID in lectures[j].participantIds
    {
      var i := 0;
      while i < |lectures|
        invariant 0 <= i <= |lectures|
        invariant forall j :: 0 <= j < i ==> !(lectures[j].id == lecture.id && user.userID in lectures[j].participantIds)
      {
        if lectures[i].id == lecture.id && user.userID in lectures[i].participantIds {
          return true;
        }
        i := i + 1;
      }
      return false;
    }

    /** `addGroupAppointmentsParticipant`: through the subcourse's lectures
        in order, skipping those that already list the user, throwing at the
        first where the user is an organizer, appending the user otherwise. */
    method AddGroupAppointmentsParticipant(subcourseId: int, userId: string) returns (error: Option<Conflict>)
      modifies this
      ensures lectures == AddResult(old(lectures), subcourseId, userId, Participant)
      ensures error == AddError(old(lectures), subcourseId, userId, Participant)
    {
      ghost var k := FirstConflict(lectures, subcourseId, userId, Participant);
      var i := 0;
      while i < |lectures|
        invariant 0 <= i <= |lectures| == |old(lectures)|
        invariant i <= k
        invariant forall j :: 0 <= j < i ==> lectures[j] == Added(old(lectures)[j], subcourseId, userId, Participant)
        invariant forall j :: i <= j < |lectures| ==> lectures[j] == old(lectures)[j]
      {
        var lecture := lectures[i];
        if lecture.subcourseId != subcourseId {
          i := i + 1;
          continue;
        }
        if userId in lecture.participantIds {
          i := i + 1;
          continue;
        }
        if userId in lecture.organizerIds {
          assert k == i;
          return Some(AlreadyOrganizer(lecture.id, userId));
        }
        lectures := lectures[i := lecture.(participantIds := lecture.participantIds + [userId])];
        i := i + 1;
      }
      return None;
    }

    /** `addGroupAppointmentsOrganizer`: the organizer's id is the student's
        user id, added as organizer of the subcourse's lectures. */
    method AddGroupAppointmentsOrganizer(subcourseId: int, organizer: UserIds.Account) returns (error: Option<Conflict>)
      modifies this
      ensures var organizerId := UserIds.UserForStudent(organizer).userID;
        lectures == AddResult(old(lectures), subcourseId, organizerId, Organizer) &&
        error == AddError(old(lectures), subcourseId, organizerId, Organizer)
    {
      var organizerId := UserIds.UserForStudent(organizer).userID;
      error := AddOrganizer(subcourseId, organizerId);
    }

    /** The loop of `addGroupAppointmentsOrganizer`: through the subcourse's
        lectures in order, throwing at the first where the id is a
        participant, skipping those that already list it as organizer,
        appending it otherwise. */
    method AddOrganizer(subcourseId: int, organizerId: string) returns (error: Option<Conflict>)
      modifies this
      ensures lectures == AddResult(old(lectures), subcourseId, organizerId, Organizer)
      ensures error == AddError(old(lectures), subcourseId, organizerId, Organizer)
    {
      ghost var k := FirstConflict(lectures, subcourseId, organizerId, Organizer);
      var i := 0;
      while i < |lectures|
        invariant 0 <= i <= |lectures| == |old(lectures)|
        invariant i <= k
        invariant forall j :: 0 <= j < i ==> lectures[j] == Added(old(lectures)[j], subcourseId, organizerId, Organizer)
        invariant forall j :: i <= j < |lectures| ==> lectures[j] == old(lectures)[j]
      {
        var lecture := lectures[i];
        if lecture.subcourseId != subcourseId {
          i := i + 1;
          continue;
        }
        if organizerId in lecture.participantIds {
          assert k == i;
          return Some(AlreadyParticipant(lecture.id, organizerId));
        }
        if organizerId in lecture.organizerIds {
          i := i + 1;
          continue;
        }
        lectures := lectures[i := lecture.(organizerIds := lecture.organizerIds + [organizerId])];
        i := i + 1;
      }
      return None;
    }

    /** `removeGroupAppointmentsParticipant`, one lecture at a time. */
    method RemoveGroupAppointmentsParticipant(subcourseId: int, userId: string, now: int)
      modifies this
      ensures |lectures| == |old(lectures)|
      ensures forall j :: 0 <= j < |lectures| ==> lectures[j] == ParticipantRemoved(old(lectures)[j], subcourseId, userId, now)
    {
      var i := 0;
      while i < |lectures|
        invariant 0 <= i <= |lectures| == |old(lectures)|
        invariant forall j :: 0 <= j < i ==> lectures[j] == ParticipantRemoved(old(lectures)[j], subcourseId, userId, now)
        invariant forall j :: i <= j < |lectures| ==> lectures[j] == old(lectures)[j]
      {
        var a := lectures[i];
        if a.subcourseId == subcourseId && userId in a.participantIds && a.start >= now {
          lectures := lectures[i := a.(participantIds := Without(a.participantIds, userId))];
        }
        i := i + 1;
      }
    }

    /** `removeGroupAppointmentsOrganizer`, one lecture at a time. */
    method RemoveGroupAppointmentsOrganizer(subcourseId: int, organizerId: string)
      modifies this
      ensures |lectures| == |old(lectures)|
      ensures forall j :: 0 <= j < |lectures| ==> lectures[j] == OrganizerRemoved(old(lectures)[j], subcourseId, organizerId)
    {
      var i := 0;
      while i < |lectures|
        invariant 0 <= i <= |lectures| == |old(lectures)|
        invariant forall j :: 0 <= j < i ==> lectures[j] == OrganizerRemoved(old(lectures)[j], subcourseId, organizerId)
        invariant forall j :: i <= j < |lectures| ==> lectures[j] == old(lectures)[j]
      {
        var a := lectures[i];
        if a.subcourseId == subcourseId {
          lectures := lectures[i := a.(organizerIds := Without(a.organizerIds, organizerId))];
        }
        i := i + 1;
      }
    }
  }
}

=== FILE: user_ids.dfy ===
/** The common user identifier `"<type>/<id>"` and the `User` wrapper that
    unifies pupils, students and screeners (common/user/index.ts). */
module UserIds {
  import opened Wrappers

  // ---------------------------------------------------------------------
  // Strings: JavaScript's split('/') and parseInt(s, 10)
  // ---------------------------------------------------------------------

  /** Position of the first `c` in `s`. */
  function IndexOf(s: string, c: char): (k: nat)
    requires c in s
    ensures k < |s| && s[k] == c && c !in s[..k]
  {
    if s[0] == c then 0
    else
      var k' := IndexOf(s[1..], c);
      assert s[..1 + k'] == [s[0]] + s[1..][..k'];
      1 + k'
  }

  /** `s.split(sep)`: the pieces between the separators, at least one. */
  function Split(s: string, sep: char): (parts: seq<string>)
    ensures |parts| >= 1
    ensures forall i :: 0 <= i < |parts| ==> sep !in parts[i]
    decreases |s|
  {
    if sep !in s then [s]
    else
      var k := IndexOf(s, sep);
      [s[..k]] + Split(s[k + 1..], sep)
  }

  /** `parts.join(sep)`, the inverse of `Split`. */
  function Join(parts: seq<string>, sep: char): string
    requires |parts| >= 1
  {
    if |parts| == 1 then parts[0]
    else parts[0] + [sep] + Join(parts[1..], sep)
  }

  /** Splitting and joining again gives back the original string. */
  lemma {:induction false} JoinSplit(s: string, sep: char)
    ensures Join(Split(s, sep), sep) == s
    decreases |s|
  {
    if sep in s {
      var k := IndexOf(s, sep);
      var rest := Split(s[k + 1..], sep);
      assert Split(s, sep) == [s[..k]] + rest;
      JoinSplit(s[k + 1..], sep);
      assert Join([s[..k]] + rest, sep) == s[..k] + [sep] + Join(rest, sep) by {
        assert ([s[..k]] + rest)[1..] == rest;
      }
      assert s == s[..k] + [sep] + s[k + 1..];
    }
  }

  /** The first piece of `a + sep + b` is `a` when `a` holds no separator. */
  lemma SplitFirst(a: string, sep: char, b: string)
    requires sep !in a
    ensures Split(a + [sep] + b, sep) == [a] + Split(b, sep)
  {
    var s := a + [sep] + b;
    assert s[..|a|] == a && s[|a|] == sep;
    var k := IndexOf(s, sep);
    assert k == |a|;
    assert s[..k] == a;
    assert s[k + 1..] == b;
  }

  /** Joining pieces free of the separator and splitting again gives back the
      pieces. */
  lemma {:induction false} SplitJoin(parts: seq<string>, sep: char)
    requires |parts| >= 1
    requires forall i :: 0 <= i < |parts| ==> sep !in parts[i]
    ensures Split(Join(parts, sep), sep) == parts
  {
    if |parts| > 1 {
      SplitJoin(parts[1..], sep);
      SplitFirst(parts[0], sep, Join(parts[1..], sep));
      assert parts == [parts[0]] + parts[1..];
    }
  }

  predicate IsDigit(c: char) {
    '0' <= c <= '9'
  }

  predicate AllDigits(s: string) {
    forall i :: 0 <= i < |s| ==> IsDigit(s[i])
  }

  function DigitValue(c: char): (d: nat)
    requires IsDigit(c)
    ensures d < 10
  {
    (c as int) - ('0' as int)
  }

  function DigitChar(d: nat): (c: char)
    requires d < 10
    ensures IsDigit(c) && DigitValue(c) == d
  {
    (('0' as int) + d) as char
  }

  /** Length of the run of decimal digits that starts `s`. */
  function LeadingDigits(s: string): (n: nat)
    ensures n <= |s|
    ensures AllDigits(s[..n])
    ensures n < |s| ==> !IsDigit(s[n])
  {
    if s == [] || !IsDigit(s[0]) then 0
    else
      var n := 1 + LeadingDigits(s[1..]);
      assert s[..n] == [s[0]] + s[1..][..n - 1];
      n
  }

  /** Value of a string of decimal digits, most significant first. */
  function DecimalValue(d: string): nat
    requires AllDigits(d)
  {
    if d == [] then 0 else DecimalValue(d[..|d| - 1]) * 10 + DigitValue(d[|d| - 1])
  }

  /** `parseInt(s, 10)`: an optional sign, then the longest run of decimal
      digits; anything after the digits is ignored. `None` stands for NaN. */
  function ParseInt(s: string): (r: Option<int>)
    ensures r.None? <==> LeadingDigits(if |s| > 0 && s[0] in "+-" then s[1..] else s) == 0
  {
    var signed := |s| > 0 && s[0] in "+-";
    var body := if signed then s[1..] else s;
    var n := LeadingDigits(body);
    if n == 0 then None
    else
      var v: int := DecimalValue(body[..n]);
      Some(if signed && s[0] == '-' then -v else v)
  }

  /** Decimal representation of a natural number, without leading zeros. */
  function NatToString(n: nat): (r: string)
    ensures |r| >= 1 && AllDigits(r)
    ensures DecimalValue(r) == n
    ensures |r| > 1 ==> r[0] != '0'
  {
    if n < 10 then [DigitChar(n)]
    else
      var prefix := NatToString(n / 10);
      var r := prefix + [DigitChar(n % 10)];
      assert r[..|r| - 1] == prefix;
      r
  }

  /** JavaScript's `${n}` for an integer. */
  function IntToString(n: int): (r: string)
    ensures '/' !in r
  {
    if n < 0 then "-" + NatToString(-n) else NatToString(n)
  }

  /** A string that is nothing but digits is read in full. */
  lemma ParseAllDigits(s: string)
    requires |s| >= 1 && AllDigits(s)
    ensures LeadingDigits(s) == |s|
    ensures ParseInt(s) == Some(DecimalValue(s))
  {
    var n := LeadingDigits(s);
    assert n == |s|;
    assert s[..n] == s;
    assert !(s[0] in "+-");
  }

  /** `parseInt` reads back exactly what template interpolation wrote. */
  lemma ParseIntOfIntToString(n: int)
    ensures ParseInt(IntToString(n)) == Some(n)
  {
    if n < 0 {
      var digits := NatToString(-n);
      var s := "-" + digits;
      assert s[1..] == digits;
      ParseAllDigits(digits);
    } else {
      ParseAllDigits(NatToString(n));
    }
  }

  // ---------------------------------------------------------------------
  // User types and identifiers
  // ---------------------------------------------------------------------

  /** The prefixes a user id may carry. `Admin` is accepted by the parser
      although no `User` is ever built for it. */
  datatype UserType = Student | Pupil | Screener | Admin

  function TypeName(t: UserType): (name: string)
    ensures '/' !in name && |name| >= 1
  {
    match t
    case Student => "student"
    case Pupil => "pupil"
    case Screener => "screener"
    case Admin => "admin"
  }

  /** The user type called `name`, if `name` is in the list of valid types. */
  function TypeNamed(name: string): (r: Option<UserType>)
    ensures r.Some? ==> TypeName(r.value) == name
  {
    if name == "student" then Some(Student)
    else if name == "pupil" then Some(Pupil)
    else if name == "screener" then Some(Screener)
    else if name == "admin" then Some(Admin)
    else None
  }

  /** Every type name is in the list of valid types, and only type names are. */
  lemma TypeNamedIff(name: string)
    ensures TypeNamed(name).None? <==> forall t: UserType :: TypeName(t) != name
    ensures forall t: UserType :: TypeNamed(TypeName(t)) == Some(t)
  {
    assert TypeNamed("student") == Some(Student);
    assert TypeNamed("pupil") == Some(Pupil);
    assert TypeNamed("screener") == Some(Screener);
    assert TypeNamed("admin") == Some(Admin);
  }

  datatype UserError =
    | InvalidUserType(segment: string)
    | UnknownUser(userID: string)

  /** The pair `[type, id]` that `getUserTypeAndIdForUserId` returns; `id` is
      `None` where JavaScript produces NaN. */
  datatype ParsedId = ParsedId(kind: UserType, id: Option<int>)

  /** The identifier written for user `id` of type `t`. */
  function UserId(t: UserType, id: int): (r: string)
    ensures |r| > |TypeName(t)| + 1 && r[..|TypeName(t)| + 1] == TypeName(t) + "/"
  {
    TypeName(t) + "/" + IntToString(id)
  }

  /** `getUserTypeAndIdForUserId`: the segment before the first `/` must name
      a valid type; the segment after it is read with `parseInt`; further
      segments are ignored. */
  function ParseUserId(userId: string): (r: Result<ParsedId, UserError>)
    ensures r.Err? ==> r.error == InvalidUserType(Split(userId, '/')[0])
    ensures r.Ok? ==> TypeName(r.value.kind) == Split(userId, '/')[0]
  {
    var parts := Split(userId, '/');
    var kind := TypeNamed(parts[0]);
    if kind.None? then Err(InvalidUserType(parts[0]))
    else Ok(ParsedId(kind.value, if |parts| > 1 then ParseInt(parts[1]) else None))
  }

  /** A user id is rejected exactly when its first segment names no type;
      otherwise the type is that segment's and the id is `parseInt` of the
      second segment (`ParseUserIdBare` covers an id without a `/`). */
  lemma ParseUserIdCases(userId: string, t: UserType, rest: string)
    requires userId == TypeName(t) + "/" + rest
    ensures ParseUserId(userId) == Ok(ParsedId(t, ParseInt(Split(rest, '/')[0])))
  {
    SplitFirst(TypeName(t), '/', rest);
    TypeNamedIff(TypeName(t));
  }

  /** A bare type name has no second segment: `parseInt(undefined, 10)` is
      NaN, so the type is read and the id is NaN. */
  lemma ParseUserIdBare(t: UserType)
    ensures ParseUserId(TypeName(t)) == Ok(ParsedId(t, None))
  {
    SplitWithout(TypeName(t), '/');
    TypeNamedIff(TypeName(t));
  }

  /** A user id whose first segment is no type name is rejected. */
  lemma ParseUserIdRejects(userId: string)
    requires forall t: UserType :: TypeName(t) != Split(userId, '/')[0]
    ensures ParseUserId(userId) == Err(InvalidUserType(Split(userId, '/')[0]))
  {
    TypeNamedIff(Split(userId, '/')[0]);
  }

  /** An identifier whose piece after the type is the decimal text of `id`
      parses to `(t, id)`. */
  lemma ParseUserIdWithId(t: UserType, id: int, rest: string)
    requires Split(rest, '/')[0] == IntToString(id)
    ensures ParseUserId(TypeName(t) + "/" + rest) == Ok(ParsedId(t, Some(id)))
  {
    ParseIntOfIntToString(id);
    ParseUserIdCases(TypeName(t) + "/" + rest, t, rest);
  }

  /** Round trip: the identifier written for `(t, id)` parses back to
      `(t, id)`, and so does any identifier with further segments after it. */
  lemma ParseUserIdOfUserId(t: UserType, id: int, more: string)
    ensures ParseUserId(UserId(t, id)) == Ok(ParsedId(t, Some(id)))
    ensures ParseUserId(UserId(t, id) + "/" + more) == Ok(ParsedId(t, Some(id)))
  {
    var digits := IntToString(id);
    SplitWithout(digits, '/');
    ParseUserIdWithId(t, id, digits);
    SplitFirst(digits, '/', more);
    UserIdExtended(t, id, more);
    ParseUserIdWithId(t, id, digits + "/" + more);
  }

  /** A string without the separator is a single piece. */
  lemma SplitWithout(s: string, sep: char)
    requires sep !in s
    ensures Split(s, sep) == [s]
  {
  }

  /** The identifier followed by more segments, regrouped after the type. */
  lemma UserIdExtended(t: UserType, id: int, more: string)
    ensures UserId(t, id) + "/" + more == TypeName(t) + "/" + (IntToString(id) + "/" + more)
  {
  }

  // ---------------------------------------------------------------------
  // The User wrapper
  // ---------------------------------------------------------------------

  /** The columns of a pupil, student or screener row that a `User` copies
      (`lastLogin` as a timestamp). */
  datatype Account = Account(id: int, firstname: string, lastname: string, email: string, active: bool, lastLogin: int)

  datatype User = User(
    userID: string,
    email: string,
    firstname: string,
    lastname: string,
    active: bool,
    lastLogin: int,
    pupilId: Option<int>,
    studentId: Option<int>,
    screenerId: Option<int>)

  /** `userForType`: the user id `type/id`, the account columns copied, and
      exactly the one `<type>Id` field of the given type set. */
  function UserForType(a: Account, t: UserType): (u: User)
    requires t != Admin
    ensures ParseUserId(u.userID) == Ok(ParsedId(t, Some(a.id)))
    ensures u.userID == UserId(t, a.id)
    ensures u.firstname == a.firstname && u.lastname == a.lastname && u.email == a.email
    ensures u.active == a.active && u.lastLogin == a.lastLogin
    ensures u.studentId.Some? <==> t == Student
    ensures u.pupilId.Some? <==> t == Pupil
    ensures u.screenerId.Some? <==> t == Screener
    ensures u.studentId.Some? ==> u.studentId.value == a.id
    ensures u.pupilId.Some? ==> u.pupilId.value == a.id
    ensures u.screenerId.Some? ==> u.screenerId.value == a.id
  {
    ParseUserIdOfUserId(t, a.id, "");
    User(
      UserId(t, a.id), a.email, a.firstname, a.lastname, a.active, a.lastLogin,
      if t == Pupil then Some(a.id) else None,
      if t == Student then Some(a.id) else None,
      if t == Screener then Some(a.id) else None)
  }

  function UserForPupil(a: Account): (u: User)
    ensures u.userID == UserId(Pupil, a.id)
    ensures u.pupilId == Some(a.id) && u.studentId.None? && u.screenerId.None?
  {
    UserForType(a, Pupil)
  }

  function UserForStudent(a: Account): (u: User)
    ensures u.userID == UserId(Student, a.id)
    ensures u.studentId == Some(a.id) && u.pupilId.None? && u.screenerId.None?
  {
    UserForType(a, Student)
  }

  function UserForScreener(a: Account): (u: User)
    ensures u.userID == UserId(Screener, a.id)
    ensures u.screenerId == Some(a.id) && u.pupilId.None? && u.studentId.None?
  {
    UserForType(a, Screener)
  }

  /** JavaScript truthiness of an optional string: absent and "" are falsy. */
  predicate Given(s: Option<string>) {
    s.Some? && s.value != ""
  }

  /** `getFullName`: the last name alone when there is no first name, the
      first name alone when there is no last name, otherwise both joined by
      one space. */
  function FullName(firstname: Option<string>, lastname: Option<string>): (r: Option<string>)
    ensures !Given(firstname) ==> r == lastname
    ensures Given(firstname) && !Given(lastname) ==> r == firstname
    ensures Given(firstname) && Given(lastname) ==>
      r.Some? && |r.value| == |firstname.value| + 1 + |lastname.value| &&
      r.value[..|firstname.value|] == firstname.value &&
      r.value[|firstname.value|] == ' ' &&
      r.value[|firstname.value| + 1..] == lastname.value
    ensures Given(firstname) ==> r.Some? && firstname.value <= r.value
  {
    if !Given(firstname) then lastname
    else if !Given(lastname) then firstname
    else Some(firstname.value + " " + lastname.value)
  }

  /** JavaScript truthiness of an optional numeric id: absent and 0 are falsy. */
  predicate HasId(id: Option<int>) {
    id.Some? && id.value != 0
  }

  /** The table `queryUser` reads and the id it looks up. */
  datatype Lookup = StudentRow(id: int) | PupilRow(id: int) | ScreenerRow(id: int)

  /** `queryUser`: dispatches on `studentId`, then `pupilId`, then
      `screenerId`, and fails when none is set. */
  function QueryUser(u: User): (r: Result<Lookup, UserError>)
    ensures r.Err? <==> !HasId(u.studentId) && !HasId(u.pupilId) && !HasId(u.screenerId)
    ensures r.Err? ==> r.error == UnknownUser(u.userID)
    ensures r.Ok? && r.value.PupilRow? ==> !HasId(u.studentId) && HasId(u.pupilId) && u.pupilId == Some(r.value.id)
    ensures r.Ok? && r.value.ScreenerRow? ==> !HasId(u.studentId) && !HasId(u.pupilId) && HasId(u.screenerId) && u.screenerId == Some(r.value.id)
    ensures r.Ok? && r.value.StudentRow? ==> HasId(u.studentId) && u.studentId == Some(r.value.id)
    ensures HasId(u.studentId) ==> r == Ok(StudentRow(u.studentId.value))
  {
    if HasId(u.studentId) then Ok(StudentRow(u.studentId.value))
    else if HasId(u.pupilId) then Ok(PupilRow(u.pupilId.value))
    else if HasId(u.screenerId) then Ok(ScreenerRow(u.screenerId.value))
    else Err(UnknownUser(u.userID))
  }

  /** A user built by `userForType` is looked up in its own table, unless its
      id is 0, which JavaScript treats as absent. */
  lemma QueryUserForType(a: Account, t: UserType)
    requires t != Admin
    ensures a.id != 0 ==>
      QueryUser(UserForType(a, t)) ==
        Ok(match t
           case Student => StudentRow(a.id)
           case Pupil => PupilRow(a.id)
           case _ => ScreenerRow(a.id))
    ensures a.id == 0 ==> QueryUser(UserForType(a, t)).Err?
  {
  }

  // ---------------------------------------------------------------------
  // getUsers / getStudentsFromList / getPupilsFromList
  // ---------------------------------------------------------------------

  /** What `getUserTypeAndIdForUserId` makes of each user id, in order. */
  function ParseAll(userIds: seq<string>): (parsed: seq<Result<ParsedId, UserError>>)
  {
    seq(|userIds|, i requires 0 <= i < |userIds| => ParseUserId(userIds[i]))
  }

  /** The ids of type `t` among the parsed user ids, in input order; failed
      parses are skipped here (`Partition` reports them). */
  function IdsOfType(parsed: seq<Result<ParsedId, UserError>>, t: UserType): (ids: seq<Option<int>>)
    ensures |ids| <= |parsed|
  {
    if parsed == [] then []
    else
      var last := parsed[|parsed| - 1];
      IdsOfType(parsed[..|parsed| - 1], t) +
        (if last.Ok? && last.value.kind == t then [last.value.id] else [])
  }

  /** An id belongs to the list of its type exactly when some user id of that
      type parses to it. */
  lemma {:induction false} IdsOfTypeMembers(parsed: seq<Result<ParsedId, UserError>>, t: UserType, id: Option<int>)
    ensures id in IdsOfType(parsed, t) <==> Ok(ParsedId(t, id)) in parsed
  {
    if parsed != [] {
      var init := parsed[..|parsed| - 1];
      IdsOfTypeMembers(init, t, id);
      assert parsed == init + [parsed[|parsed| - 1]];
    }
  }

  /** Screener and admin ids reach neither list. */
  lemma {:induction false} IdsOfAdminDropped(parsed: seq<Result<ParsedId, UserError>>)
    requires forall i :: 0 <= i < |parsed| ==> parsed[i].Ok? && parsed[i].value.kind in {Screener, Admin}
    ensures IdsOfType(parsed, Pupil) == [] && IdsOfType(parsed, Student) == []
  {
    if parsed != [] {
      IdsOfAdminDropped(parsed[..|parsed| - 1]);
    }
  }

  /** Appending user ids appends to each list: the lists keep input order. */
  lemma {:induction false} IdsOfTypeAppend(a: seq<Result<ParsedId, UserError>>, b: seq<Result<ParsedId, UserError>>, t: UserType)
    ensures IdsOfType(a + b, t) == IdsOfType(a, t) + IdsOfType(b, t)
    decreases |b|
  {
    if b != [] {
      var b' := b[..|b| - 1];
      assert (a + b)[..|a + b| - 1] == a + b';
      IdsOfTypeAppend(a, b', t);
    } else {
      assert a + b == a;
    }
  }

  /** One more parsed id extends the list of its type by its id. */
  lemma IdsOfTypeStep(parsed: seq<Result<ParsedId, UserError>>, i: nat, t: UserType)
    requires i < |parsed|
    ensures IdsOfType(parsed[..i + 1], t) ==
      IdsOfType(parsed[..i], t) + (if parsed[i].Ok? && parsed[i].value.kind == t then [parsed[i].value.id] else [])
  {
    assert parsed[..i + 1][..i] == parsed[..i];
  }

  /** The first failed parse, if any. */
  function FirstInvalid(parsed: seq<Result<ParsedId, UserError>>): (r: Option<nat>)
    ensures r.None? <==> forall i :: 0 <= i < |parsed| ==> parsed[i].Ok?
    ensures r.Some? ==>
      r.value < |parsed| && parsed[r.value].Err? &&
      (forall i :: 0 <= i < r.value ==> parsed[i].Ok?)
  {
    if parsed == [] then None
    else if parsed[0].Err? then Some(0)
    else
      var r := FirstInvalid(parsed[1..]);
      if r.None? then None else Some(r.value + 1)
  }

  /** The parses before `i + 1` all succeeded. */
  lemma OkThrough(parsed: seq<Result<ParsedId, UserError>>, i: nat)
    requires i < |parsed| && parsed[i].Ok?
    requires forall j :: 0 <= j < i ==> parsed[j].Ok?
    ensures forall j :: 0 <= j < i + 1 ==> parsed[j].Ok?
  {
  }

  /** The first failed parse is at `i` when every earlier parse succeeded. */
  lemma FirstInvalidAt(parsed: seq<Result<ParsedId, UserError>>, i: nat)
    requires i < |parsed| && parsed[i].Err?
    requires forall j :: 0 <= j < i ==> parsed[j].Ok?
    ensures FirstInvalid(parsed) == Some(i)
  {
  }

  /** The loop of `getUsers`: pupil ids to `pupilIds` and student ids to
      `studentIds`, each in input order; screener and admin ids are dropped;
      the first invalid id throws. */
  method Partition(userIds: seq<string>) returns (r: Result<(seq<Option<int>>, seq<Option<int>>), UserError>)
    ensures r.Err? <==> FirstInvalid(ParseAll(userIds)).Some?
    ensures r.Err? ==> r.error == ParseUserId(userIds[FirstInvalid(ParseAll(userIds)).value]).error
    ensures r.Ok? ==> r.value.0 == IdsOfType(ParseAll(userIds), Pupil) && r.value.1 == IdsOfType(ParseAll(userIds), Student)
  {
    ghost var all := ParseAll(userIds);
    var pupilIds: seq<Option<int>> := [];
    var studentIds: seq<Option<int>> := [];
    var i := 0;
    while i < |userIds|
      invariant 0 <= i <= |userIds|
      invariant forall j :: 0 <= j < i ==> all[j].Ok?
      invariant pupilIds == IdsOfType(all[..i], Pupil)
      invariant studentIds == IdsOfType(all[..i], Student)
    {
      var parsed := ParseUserId(userIds[i]);
      assert parsed == all[i];
      IdsOfTypeStep(all, i, Pupil);
      IdsOfTypeStep(all, i, Student);
      if parsed.Err? {
        FirstInvalidAt(all, i);
        return Err(parsed.error);
      }
      OkThrough(all, i);
      if parsed.value.kind == Pupil {
        pupilIds := pupilIds + [parsed.value.id];
      }
      if parsed.value.kind == Student {
        studentIds := studentIds + [parsed.value.id];
      }
      i := i + 1;
    }
    assert all[..i] == all;
    r := Ok((pupilIds, studentIds));
  }

  /** A user as `getUsers` returns it: the selected columns, the user id and
      the `isStudent` / `isPupil` flag. */
  datatype ListedUser = ListedUser(account: Account, userID: string, isStudent: bool, isPupil: bool)

  /** `findMany({ where: { id: { in: ids } } })`: the rows of `table` whose id
      is among `ids`, in table order (NaN matches no row). */
  function RowsWithIds(table: seq<Account>, ids: seq<Option<int>>): (rows: seq<Account>)
    ensures forall a :: a in rows <==> a in table && Some(a.id) in ids
  {
    if table == [] then []
    else
      var rest := RowsWithIds(table[1..], ids);
      assert forall a :: a in table <==> a == table[0] || a in table[1..];
      if Some(table[0].id) in ids then [table[0]] + rest else rest
  }

  function Listed(rows: seq<Account>, t: UserType): (users: seq<ListedUser>)
    requires t == Student || t == Pupil
    ensures |users| == |rows|
    ensures forall i :: 0 <= i < |rows| ==>
      (users[i].account == rows[i] && users[i].userID == UserId(t, rows[i].id) &&
       users[i].isStudent == (t == Student) && users[i].isPupil == (t == Pupil))
  {
    seq(|rows|, i requires 0 <= i < |rows| => ListedUser(rows[i], UserId(t, rows[i].id), t == Student, t == Pupil))
  }

  /** `getUsers`: partition the ids, fetch both tables, and list every
      student before every pupil. */
  method GetUsers(students: seq<Account>, pupils: seq<Account>, userIds: seq<string>)
    returns (r: Result<seq<ListedUser>, UserError>)
    ensures r.Err? <==> FirstInvalid(ParseAll(userIds)).Some?
    ensures r.Ok? ==>
      r.value ==
      Listed(RowsWithIds(students, IdsOfType(ParseAll(userIds), Student)), Student) +
      Listed(RowsWithIds(pupils, IdsOfType(ParseAll(userIds), Pupil)), Pupil)
    ensures r.Ok? ==> forall i, j :: (0 <= i < j < |r.value| && r.value[j].isStudent) ==> r.value[i].isStudent
  {
    var partition := Partition(userIds);
    if partition.Err? {
      return Err(partition.error);
    }
    var (pupilIds, studentIds) := partition.value;
    var foundStudents := Listed(RowsWithIds(students, studentIds), Student);
    var foundPupils := Listed(RowsWithIds(pupils, pupilIds), Pupil);
    r := Ok(foundStudents + foundPupils);
  }

  /** `it.startsWith(prefix)`. */
  predicate StartsWith(s: string, prefix: string) {
    prefix <= s
  }

  /** The ids `getStudentsFromList` (prefix `"student/"`) and
      `getPupilsFromList` (prefix `"pupil/"`) look up: the user ids with that
      prefix, in order, each read with `parseInt` of its second segment. */
  function IdsFromList(userIDs: seq<string>, prefix: string): (ids: seq<Option<int>>)
    requires '/' in prefix
    ensures |ids| <= |userIDs|
  {
    if userIDs == [] then []
    else
      var parts := Split(userIDs[0], '/');
      (if StartsWith(userIDs[0], prefix) && |parts| > 1 then [ParseInt(parts[1])] else []) +
        IdsFromList(userIDs[1..], prefix)
  }

  /** The piece of `s` after its first `/`, as `s.split('/')[1]` reads it. */
  lemma SplitAfterPrefix(s: string, t: UserType)
    requires StartsWith(s, TypeName(t) + "/")
    ensures |Split(s, '/')| > 1
    ensures ParseUserId(s) == Ok(ParsedId(t, ParseInt(Split(s, '/')[1])))
  {
    var prefix := TypeName(t) + "/";
    var rest := s[|prefix|..];
    assert s == TypeName(t) + "/" + rest;
    SplitFirst(TypeName(t), '/', rest);
    ParseUserIdCases(s, t, rest);
  }

  /** Every id that starts with `"<type>/"` contributes exactly one entry,
      and it is the id `getUserTypeAndIdForUserId` reads from it: the two
      parsers agree. */
  lemma {:induction false} IdsFromListAgrees(userIDs: seq<string>, t: UserType)
    requires forall i :: 0 <= i < |userIDs| ==> StartsWith(userIDs[i], TypeName(t) + "/")
    ensures |IdsFromList(userIDs, TypeName(t) + "/")| == |userIDs|
    ensures forall i :: 0 <= i < |userIDs| ==>
      ParseUserId(userIDs[i]) == Ok(ParsedId(t, IdsFromList(userIDs, TypeName(t) + "/")[i]))
  {
    var prefix := TypeName(t) + "/";
    if userIDs != [] {
      var tail := IdsFromList(userIDs[1..], prefix);
      IdsFromListAgrees(userIDs[1..], t);
      SplitAfterPrefix(userIDs[0], t);
      var ids := IdsFromList(userIDs, prefix);
      assert ids == [ParseInt(Split(userIDs[0], '/')[1])] + tail;
      forall i | 0 <= i < |userIDs|
        ensures ParseUserId(userIDs[i]) == Ok(ParsedId(t, ids[i]))
      {
        if i > 0 {
          assert userIDs[1..][i - 1] == userIDs[i] && ids[i] == tail[i - 1];
        }
      }
    }
  }

  /** Ids without the prefix are dropped. */
  lemma {:induction false} IdsFromListSkips(userIDs: seq<string>, prefix: string)
    requires '/' in prefix
    requires forall i :: 0 <= i < |userIDs| ==> !StartsWith(userIDs[i], prefix)
    ensures IdsFromList(userIDs, prefix) == []
  {
    if userIDs != [] {
      IdsFromListSkips(userIDs[1..], prefix);
    }
  }

  /** The filter reads each entry on its own: the ids of a concatenation are
      the ids of its parts, in order. With `IdsFromListOne` this fixes the
      ids of any list, mixed prefixes included. */
  lemma {:induction false} IdsFromListAppend(a: seq<string>, b: seq<string>, prefix: string)
    requires '/' in prefix
    ensures IdsFromList(a + b, prefix) == IdsFromList(a, prefix) + IdsFromList(b, prefix)
  {
    if a == [] {
      assert a + b == b;
    } else {
      assert (a + b)[0] == a[0];
      assert (a + b)[1..] == a[1..] + b;
      IdsFromListAppend(a[1..], b, prefix);
    }
  }

  /** One entry: with the prefix `"<type>/"` it gives exactly the id
      `getUserTypeAndIdForUserId` reads from it; without the prefix it gives
      nothing. */
  lemma IdsFromListOne(s: string, t: UserType)
    ensures StartsWith(s, TypeName(t) + "/") ==>
      |IdsFromList([s], TypeName(t) + "/")| == 1 &&
      ParseUserId(s) == Ok(ParsedId(t, IdsFromList([s], TypeName(t) + "/")[0]))
    ensures !StartsWith(s, TypeName(t) + "/") ==> IdsFromList([s], TypeName(t) + "/") == []
  {
    var prefix := TypeName(t) + "/";
    assert '/' in prefix by { assert prefix[|prefix| - 1] == '/'; }
    assert [s][1..] == [];
    if StartsWith(s, prefix) {
      SplitAfterPrefix(s, t);
    }
  }

  /** `getStudentsFromList` / `getPupilsFromList`: the rows whose ids were
      read from the listed user ids of the given prefix. */
  function AccountsFromList(table: seq<Account>, userIDs: seq<string>, prefix: string): (rows: seq<Account>)
    requires '/' in prefix
    ensures forall a :: a in rows <==> a in table && Some(a.id) in IdsFromList(userIDs, prefix)
  {
    RowsWithIds(table, IdsFromList(userIDs, prefix))
  }
}

=== FILE: wrappers.dfy ===
/** Failure-compatible wrappers shared by every module of the model:
    `Option` for JavaScript's null/undefined (and NaN, for parsed numbers),
    `Result` for an operation that either returns a value or throws. */
module Wrappers {

  datatype Option<+T> = None | Some(value: T)

  datatype Result<+T, +E> = Ok(value: T) | Err(error: E) {
    predicate IsFailure() {
      Err?
    }

    function PropagateFailure<U>(): Result<U, E>
      requires Err?
    {
      Err(error)
    }

    function Extract(): T
      requires Ok?
    {
      value
    }
  }
}
